=== FILE: README.md ===
# worse-lang interpreter core in Dafny

A model of the core of the worse-lang interpreter. The interpreter runs a
combinator language: a program is built from eight primitives
(`PLUS MINUS PRED WRAP CONST ROTATE` and the two markers `MARKER_INC`,
`MARKER_INIT`) and 32-bit numerals, combined by application. The program's
value is a Church-encoded list that the runtime reads as a byte stream.

The model has six modules:

- `Ints` (`ints.dfy`): the `u64`/`u32`/`u8` arithmetic the core uses, as
  bitvectors. Checked addition and multiplication are computed exactly on 64
  bits.
- `Words` (`words.dfy`): the one-word term representation, `Value`. It covers:
  - primitive words, numeral words and the three inline application layouts
    (`pair_13`, `pair_30`, `pair_64`);
  - heap applications, as an abstract `Heap` node;
  - `pair_width`, `bind` and `data` (here `Decode`).
- `Shortcuts` (`shortcuts.dfy`): `Value::apply`, the table of literal
  shortcuts and the numeral arithmetic, which falls back to `bind`.
- `Engine` (`engine.dfy`): the reduction engine. It contains:
  - the eight step functions and `eval_number`, each paired with a rule lemma
    in the "argument view", where index 0 is the first pending argument (the
    top of the stack);
  - the two contexts `Pure` and `Decoder`;
  - `eval`'s trampoline, run with a step budget (`fuel`).
- `EvalLaws` (`laws.dfy`): what `eval` does on whole terms. It covers:
  - the decoder's verdicts on `CONST`, `ZERO` and `ONE`;
  - the order in which `Pure` re-applies leftover arguments;
  - where `eval`'s special cases agree with `apply`, and the one place they do
    not;
  - the two panics the code can reach.
- `Program` (`parse.dfy`): `Program::parse`, the postfix reader.
- `Reader` (`stream.dfy`): `Runtime::read`. Its input is a sequence of the
  events a one-byte `read` can report. The loop is written over a record of
  the core operations it calls (`apply`, `eval::<Pure>`, `eval::<Decoder>`);
  `EVAL` is the record holding the engine's own.

The model follows the code as written, including these behaviours:

- A numeral word is `n << 4 | 2`, but `data` decodes its magnitude as
  `raw >> 2`. So `number(n)` denotes `4n mod 2^32`.
- The 64-bit layout admits numerals below `2^30`, but its argument field has
  only 30 bits. Two examples:
  - `bind(PLUS, number(2^26))` decodes as `PLUS` applied to `ZERO`;
  - `bind(PLUS, number(0x3000_0000))` decodes as `MARKER_INC` applied to
    `ZERO`. Reducing it under `Pure` reaches the `unreachable!()` of
    `Pure::add`.
- `number(2^30)` decodes with magnitude 0. When it heads a term with at least
  two pending arguments, and the first is neither `MARKER_INC`, a numeral
  nor `n PLUS`, the unchecked `i - 1` of `eval_number` overflows. The term
  `1073741824 PLUS PLUS` is one such term.
- `bind(ROTATE, ZERO)` is a `pair_30` word, never the `pair_13` constant
  `ROTATE_ZERO`. So `apply`'s `ROTATE ZERO ROTATE` shortcut never fires on a
  term `apply` built, although `eval_rotate`'s toggle does fire.
- `Pure::result` folds `apply` from the bottom of the stack. With two or more
  leftover arguments, it applies them in reverse order.

Four behaviours differ from what the textbook combinators would lead a
reader to expect. The model follows the code:

- `PLUS m n f x` continues as `m (n f x)`, not as the Church sum
  `n f (m f x)` (src/worse/core.rs:295-296).
- `ROTATE x y z` continues as the rotation `y z x`, not as the flip `y x z`
  (src/worse/core.rs:376-378).
- `ZERO` is the Church numeral 0 and takes two arguments: `ZERO x y` is `y`
  (src/worse/core.rs:382-388).
- `Decoder::add` sums every numeral it is given while the total stays a byte.
  It does not reject a second numeral (src/worse/core.rs:268-276).

## Model

| member | source | states |
|---|---|---|
| Words.PrimitiveDecodes | src/worse/core.rs:8-18 | Every primitive word decodes as an atom (`Data::None`) and needs only the 13-bit layout. |
| Words.NumberDecodes | src/worse/core.rs:148 | `data(number(n))` is `Number(n << 2)`, i.e. 4n modulo 2^32: decoding does not invert `number`. |
| Words.NumberWidth | src/worse/core.rs:56-65 | A numeral needs the 30-bit layout below 0x200, the 64-bit layout below 2^30, and a heap node from 2^30 on. |
| Words.BindWidth | src/worse/core.rs:80-91 | `bind` packs into the wider of the two components' layouts, and allocates a heap node exactly when one component needs a pointer. |
| Words.PackRoundTrip | src/worse/core.rs:26-34 | Packing two components in a layout decodes back to the same two components if and only if both fit that layout's fields. |
| Words.BindRoundTrip | src/worse/core.rs:80-91 | `data(bind(x, y)) == Pair(x, y)` holds if and only if both components fit the layout `bind` picks. |
| Words.BindDecodesAsPair | src/worse/core.rs:141-147 | Whatever `bind` builds decodes as an application, never as an atom, a numeral or a dangling pointer. |
| Words.BindPrimitives | src/worse/core.rs:80-84 | Two primitives always go into the 13-bit layout and decode back to themselves. |
| Words.BindNumberRoundTrip | src/worse/core.rs:59-62 | A primitive bound to a numeral between 0x200 and 2^30 uses the 64-bit layout, and decodes back if and only if the numeral is below 2^26. |
| Words.BindTruncates | src/worse/core.rs:32-34 | `bind(PLUS, number(2^26))` decodes as `PLUS` applied to `ZERO`. |
| Words.BindForgesMarker | src/worse/core.rs:146-147 | `bind(PLUS, number(0x3000_0000))` decodes as `MARKER_INC` applied to `ZERO`, so a term can smuggle a marker in. |
| Words.BindAvoidsZeroConstants | src/worse/core.rs:38-40 | `bind` never yields the packed constants `CONST_ZERO` or `ROTATE_ZERO`, although `bind(CONST, ZERO)` decodes exactly like `CONST_ZERO`. |
| Shortcuts.LiteralsDecode | src/worse/core.rs:35-41 | What the literal words compared by `apply` decode to. |
| Shortcuts.ApplyLiterals | src/worse/core.rs:155-177 | The literal shortcut table: `PLUS CONST`, `PRED PRED`, `ZERO x`, `ONE x`, the `MINUS` toggles and the `ROTATE` toggles. |
| Shortcuts.ApplyPrimitives | src/worse/core.rs:154-206 | Two primitives are combined by `bind` (and decode back), except for the shortcuts `PLUS CONST` and `PRED PRED`. |
| Shortcuts.ApplyConstLaw | src/worse/core.rs:202 | `(CONST u) x` is `u` for every word that decodes as `CONST` applied to `u`, whatever its layout. |
| Shortcuts.ApplyAddLaw | src/worse/core.rs:189-195 | `(PLUS m) n` on decoded numerals is the numeral of the sum when it fits in 32 bits, and `bind` otherwise. |
| Shortcuts.ApplySubLaw | src/worse/core.rs:196-200 | `(MINUS m) n` on decoded numerals is always the numeral of the saturating difference. |
| Shortcuts.ApplyMulLaw | src/worse/core.rs:184-188 | `m (n PLUS)` is the numeral of the product when it fits in 32 bits, and `bind` otherwise. |
| Shortcuts.ApplyPowLaw | src/worse/core.rs:180-183 | `m n` is the numeral of `n` to the power `m` when it fits in 32 bits, and `bind` otherwise. |
| Shortcuts.ApplyPredLaw | src/worse/core.rs:159-163 | `PRED n` is the numeral of the saturating predecessor. |
| Shortcuts.ApplyBindsOtherwise | src/worse/core.rs:203-206 | A head outside the table and the arithmetic patterns is combined by plain `bind`. |
| Shortcuts.ApplyLiteralMisses | src/worse/core.rs:155-177 | A literal head whose guard fails (`PLUS x` with `x` not `CONST`, `PRED x` with `x` neither `PRED` nor a numeral, the `MINUS` and `ROTATE` words with any other argument) is combined by plain `bind`. |
| Shortcuts.ApplyOperandMisses | src/worse/core.rs:179-201 | A numeral applied to neither a numeral nor `n PLUS`, and `PLUS u` or `MINUS u` with a non-numeral operand, are combined by plain `bind`. |
| Shortcuts.ApplyFallsThrough | src/worse/core.rs:154-206 | `apply` differs from `bind` only where a row of the shortcut table applies; every other input is plain `bind`. |
| Engine.PlusRule | src/worse/core.rs:280-298 | `PLUS` needs four arguments and otherwise stops. Two numerals add and consume only `m` and `n`, and an overflowing sum stops with both popped. `PLUS CONST n f x` is `f`; otherwise the result is `m (n f x)`. |
| Engine.MinusRule | src/worse/core.rs:300-322 | `MINUS` needs two arguments. It gives the toggles to `ROTATE` and `ZERO`, the saturating difference of two numerals, and otherwise `n PRED m`. |
| Engine.PredRule | src/worse/core.rs:324-341 | `PRED` needs three arguments. A numeral gives its saturating predecessor and consumes only itself. `PRED PRED f x` is `ONE`; otherwise the result is `m (WRAP f) (CONST x) ONE`. |
| Engine.WrapRule | src/worse/core.rs:343-352 | `WRAP f g h` needs three arguments and is `h (g f)`. |
| Engine.ConstRule | src/worse/core.rs:354-361 | `CONST x y` needs two arguments and is `x`. |
| Engine.RotateRule | src/worse/core.rs:363-380 | `ROTATE x y z` needs three arguments and is `y z x`. `ROTATE CONST ROTATE` is `ZERO` and `ROTATE ZERO ROTATE` is `CONST`; both leave `z` in place. |
| Engine.ZeroRule | src/worse/core.rs:382-389 | `ZERO x y` needs two arguments and is `y`. |
| Engine.OneRule | src/worse/core.rs:391-393 | `ONE x` needs one argument and is `x`. |
| Engine.NumberRule | src/worse/core.rs:395-410 | A numeral head takes the power or product shortcut when it applies. Otherwise `i f x` is `f ((i - 1) f x)`, and the unchecked `i - 1` overflows for a magnitude of 0. |
| Engine.NextAccCounts | src/worse/core.rs:268-276 | The decoder's accumulator stays a byte, equal to the running total, while the total is below 256. Once lost it stays lost. |
| Engine.DecoderResult | src/worse/core.rs:257-266 | The verdict is `Invalid` on any leftover argument. It is `True` exactly for head `MARKER_INC` with a zero count, and `Byte(n)` exactly for head `MARKER_INIT` with count `n`. |
| Engine.StepReachesAdd | src/worse/core.rs:233-235 | A step panics with `unreachable!()` exactly when a `Pure` machine hands control to its context. |
| Engine.StepKeepsContext | src/worse/core.rs:412-443 | Only the context's `add` changes the context, and a machine that leaves the loop keeps its head. |
| Engine.StepUnderflows | src/worse/core.rs:406-409 | The `i - 1` overflow happens exactly when the head is a numeral of magnitude 0 other than the literal `ZERO`, with at least two pending arguments, whose first argument is neither `MARKER_INC`, a numeral nor `n PLUS`. |
| Engine.StepUnwinds | src/worse/core.rs:424-428 | An application head is unwound: its function becomes the head and its argument the new first argument. |
| Engine.ReduceMonotone | src/worse/core.rs:414-440 | A run of `eval` that finished or panicked within a budget gives the same outcome with any larger budget. |
| Engine.ReduceKeepsContextKind | src/worse/core.rs:249-277 | A run started in a `Decoder` context never reaches `unreachable!()`, and a finished run keeps its kind of context. |
| Engine.RunMachine | src/worse/core.rs:412-443 | `eval`'s loop as a loop computes the same run as the recursive definition. |
| EvalLaws.DecodeConst | src/worse/core.rs:253-266 | Decoding `CONST` gives `True`. |
| EvalLaws.DecodeZero | src/worse/core.rs:253-266 | Decoding `ZERO` gives the byte 0. |
| EvalLaws.DecodeOne | src/worse/core.rs:268-276 | Decoding `ONE` gives the byte 1: the increment marker is counted once. |
| EvalLaws.PureResultTopLast | src/worse/core.rs:227-232 | `Pure::result` applies the top of the stack, which is the first pending argument, last. |
| EvalLaws.PureResultReverses | src/worse/core.rs:227-232 | For the term `PLUS CONST MINUS`, `Pure` yields `(PLUS MINUS) CONST`, while applying the arguments in order gives `CONST`. |
| EvalLaws.PureReachesUnreachable | src/worse/core.rs:233-235 | `eval::<Pure>` panics in `Pure::add` on the term `PLUS 805306368`. |
| EvalLaws.PureUnderflows | src/worse/core.rs:406-409 | `eval::<Pure>` overflows `i - 1` on the term `1073741824 PLUS PLUS`. |
| EvalLaws.NumberAgreesWithApply | src/worse/core.rs:396-405 | For a numeral head, `eval_number`'s shortcut is exactly `apply`'s: the same power or product, and `bind` when neither fires. |
| EvalLaws.PlusAgreesWithApply | src/worse/core.rs:284-288 | `PLUS m n` on numerals gives what `apply` gives for `(PLUS m) n`, whenever `PLUS m` survives `bind` and the sum fits. |
| EvalLaws.MinusAgreesWithApply | src/worse/core.rs:306-317 | `MINUS m n` gives what `apply` gives on the literal toggles, and on two numerals whenever `MINUS m` survives `bind`. |
| EvalLaws.RotateAgainstApply | src/worse/core.rs:369-375 | `ROTATE CONST ROTATE` agrees with `apply`. `ROTATE ZERO ROTATE` does not: `eval` gives `CONST`, `apply` does not. |
| EvalLaws.RotateZero | src/worse/core.rs:172-177 | `apply` builds `ROTATE ZERO ROTATE` with plain `bind` twice, so its toggle never fires. |
| Program.ParseIgnoresComments | src/worse.rs:11-22 | Removing every byte other than `+`, `-` and `.` does not change what a source parses to. |
| Program.ParseFromHeight | src/worse.rs:15-19 | Parsing fails exactly when a `.` meets fewer than two values; otherwise the stack has the height that counting pushes and pops predicts. |
| Program.ParseSucceeds | src/worse.rs:23-26 | A source is a program if and only if its running count never pops short and ends at one. |
| Program.ParseFromAppend | src/worse.rs:11-22 | Reading `a + b` is reading `a`, then reading `b` from where `a` left the stack. |
| Program.ParseOnto | src/worse.rs:11-22 | A program read on top of existing values pushes its value and leaves them alone. |
| Program.ParseApplication | src/worse.rs:15-19 | `p q .` parses as `q`'s value applied to `p`'s value. |
| Program.ParseExamples | src/worse.rs:12-19 | `+` is `PLUS`, `-` is `MINUS`, `+-.` is `MINUS PLUS`; `+-` and `.` are not programs. |
| Program.ParseProgram | src/worse.rs:9-27 | The loop over the source computes `Parse`. |
| Reader.FetchConsumes | src/worse.rs:60-67 | Fetching a byte of input consumes events from the front only. |
| Reader.FetchSkipsInterrupts | src/worse.rs:64 | Any number of interrupted reads before an event change nothing. |
| Reader.FetchDecides | src/worse.rs:61-65 | A byte `b` becomes `number(b)`, the end of input becomes `CONST`, and an error is passed on. |
| Reader.ServeHonest | src/worse.rs:50-81 | A byte is written exactly when the result is `Ok(1)`, and never more than one. The program is replaced only when a byte is written. Input is consumed from the front. |
| Reader.ReadHonest | src/worse.rs:46-49 | An empty buffer gives `Ok(0)` with nothing evaluated, consumed or changed; every other call keeps the promises of `ServeHonest`. |
| Reader.ServeWritesHead | src/worse.rs:73-77 | On any turn of the loop, a list whose first probe decodes a byte `b` writes `b`, returns `Ok(1)` and keeps the list's tail as the program. |
| Reader.ServeEndsStream | src/worse.rs:54-57 | On any turn, when both probes give `True`, the call returns `Ok(0)` with nothing written and the program and input as they were. |
| Reader.ServeTakesInput | src/worse.rs:58-68 | On any turn, a second probe of byte 0 skips interrupted reads. A byte `b` feeds `number(b)` and the end of input feeds `CONST` to the tail, and the loop goes on; an input error ends the call with that error. |
| Reader.ServeRejects | src/worse.rs:70-81 | A first probe that is neither `True` nor a byte, or a second probe that is neither `True` nor the byte 0, ends the call with `InvalidData`, nothing written and the state unchanged. |
| Reader.ReadWritesHead | src/worse.rs:73-77 | The first turn of a call with a non-empty buffer: a first probe of byte `b` writes `b`, returns `Ok(1)` and keeps the list's tail as the program. |
| Reader.ReadEndsStream | src/worse.rs:54-57 | The first turn of a call: when both probes give `True`, the call returns `Ok(0)` with the state unchanged. |
| Reader.ReadTakesInput | src/worse.rs:58-68 | The first turn of a call with any non-empty buffer: a second probe of byte 0 reads one byte `b` and continues with the tail applied to `number(b)`. |
| Reader.EngineMonotone | src/worse.rs:52-55 | Both reductions `read` calls give the same answer under any larger budget. |
| Reader.ServeMonotone | src/worse.rs:50-80 | A call of `read` that answered or panicked within a budget gives the same with any larger one. |
| Reader.ReadMonotone | src/worse.rs:46-82 | The same, for `read` with the engine's evaluators. |
| Reader.ReadLoop | src/worse.rs:46-82 | `read` written as the source's loop computes `ReadWith`. |
| Reader.RuntimeRead | src/worse.rs:46-82 | `Runtime::read` computes `Read`. |

## Left out

- Reference counting (`inc_ref`, `dec_ref`, `duplicate`, `ignore`,
  src/worse/core.rs:93-124): these are the identity on values, and a heap
  application is the abstract node `Heap(fun, arg)`. Leaks and frees are not
  modelled.
- Heap addresses: a heap word is never equal to any inline constant. An inline
  word with low bits `00` that came out of a truncated layout decodes as
  `Dangling`, and every pattern treats it as matching nothing. The source would
  dereference such a word, which is undefined behaviour.
- `src/main.rs`: command-line handling, file I/O and copying to standard
  output.
- `Program::wrap`: a constructor, modelled as the `Runtime` datatype.
- The `std::io::Read` trait and `io::ErrorKind`. Input is a sequence of
  events. An input error is carried as an opaque number. An empty event
  sequence behaves as the end of input.
- Termination: Church terms can diverge, so `eval` and `read` run with a step
  budget. An exhausted budget is an outcome of its own (`NoFuel`,
  `OutOfFuel`). One budget bounds both the turns of `read`'s loop and every
  reduction within a turn.
- Build profile: `i - 1` in `eval_number` is modelled as the panic of a
  debug build. A release build would wrap it to `u32::MAX`.
- Marker-freeness of terms is not proved, because it does not hold:
  `EvalLaws.PureReachesUnreachable` exhibits a term built by `apply` on which
  `Pure::add` is reached. Whether `parse` alone can produce such a term is not
  established.
- Ints.CheckedPow: written as repeated checked multiplication, not by squaring
  like the standard library. The two agree on whether the power fits, but that
  equivalence is not proved.
- EvalLaws.PlusAgreesWithApply: covers only sums that fit and a `PLUS m` that
  `bind` keeps intact. Outside those cases `eval` and `apply` can differ.
- EvalLaws.MinusAgreesWithApply: the numeral case needs `MINUS m` to survive
  `bind`. The fallback `n PRED m` has no `apply` counterpart.
- A concrete run of `read` on a whole list program is not stated. The
  lemmas `Reader.ServeWritesHead`, `Reader.ServeEndsStream`,
  `Reader.ServeTakesInput` and `Reader.ServeRejects` relate each branch of
  every turn of the loop to the evaluators' verdicts instead.

=== FILE: engine.dfy ===
/** The reduction engine of `src/worse/core.rs`: `Value::eval`, an
    explicit-stack trampoline. The machine holds a head term and a stack of
    pending arguments whose top (the last element of the sequence, as with
    Rust's `Vec`) is the head's first argument. Each step either rewrites
    head and stack, stops (the source's `None`, which ends the loop), or
    panics. The loop is run for a bounded number of steps, because terms of
    this language may diverge. */
module Engine {
  import opened Ints
  import opened Words
  import opened Shortcuts

  // ---------------------------------------------------------------------
  // The argument view of a stack
  // ---------------------------------------------------------------------

  /** The pending arguments in application order: `Args(s)[0]` is the top
      of the stack, the head's first argument. */
  function Args(s: seq<Value>): seq<Value> {
    seq(|s|, i requires 0 <= i < |s| => s[|s| - 1 - i])
  }

  /** Popping `k` items drops the first `k` arguments. */
  lemma ArgsPop(s: seq<Value>, k: nat)
    requires k <= |s|
    ensures Args(s[..|s| - k]) == Args(s)[k..]
  {
    var t := s[..|s| - k];
    var a, b := Args(s), Args(t);
    forall i | 0 <= i < |b|
      ensures b[i] == a[k + i]
    {
      assert b[i] == t[|t| - 1 - i];
      assert a[k + i] == s[|s| - 1 - (k + i)];
    }
    assert b == a[k..];
  }

  /** Pushing an item makes it the first argument. */
  lemma ArgsPush(s: seq<Value>, v: Value)
    ensures Args(s + [v]) == [v] + Args(s)
  {
    var t := s + [v];
    forall i | 0 <= i < |t|
      ensures Args(t)[i] == ([v] + Args(s))[i]
    {
      if i > 0 {
        assert t[|t| - 1 - i] == s[|s| - 1 - (i - 1)];
      }
    }
  }

  // ---------------------------------------------------------------------
  // Step functions
  // ---------------------------------------------------------------------

  /** What a step function does to the machine: continue with a new head,
      stop (the loop then ends with the current head), or panic on an
      arithmetic overflow. */
  datatype Move = Go(head: Value, stack: seq<Value>) | Stop(stack: seq<Value>) | Overflow

  /** The two panics of the core: `Pure::add`'s `unreachable!()` and the
      overflow of `i - 1` in `eval_number`. */
  datatype Crash = Unreachable | Underflow

  // The step functions are plain definitions; the rewrite each one performs
  // is stated in the argument view by the lemma that follows it.

  function EvalPlus(s: seq<Value>): Move {
    if |s| < 4 then Stop(s)
    else
      var m, n := s[|s| - 1], s[|s| - 2];
      if Decode(m).Num? && Decode(n).Num? then
        match CheckedAdd(Decode(m).n, Decode(n).n)
        case Some(v) => Go(Number(v), s[..|s| - 2])
        case None => Stop(s[..|s| - 2])
      else
        var f, x := s[|s| - 3], s[|s| - 4];
        if m == CONST then Go(f, s[..|s| - 4])
        else Go(m, s[..|s| - 4] + [Apply(Apply(n, f), x)])
  }

  /** `PLUS m n f x`. Two numerals are added, consuming only `m` and `n`; a
      sum that overflows stops the machine after both were popped.
      `PLUS CONST n f x` is `f`; otherwise the result is `m (n f x)`. */
  lemma PlusRule(s: seq<Value>)
    ensures |s| < 4 ==> EvalPlus(s) == Stop(s)
    ensures |s| >= 4 && Decode(Args(s)[0]).Num? && Decode(Args(s)[1]).Num? ==>
      var r, sum := EvalPlus(s), CheckedAdd(Decode(Args(s)[0]).n, Decode(Args(s)[1]).n);
      && (sum.Some? ==> r.Go? && r.head == Number(sum.value) && Args(r.stack) == Args(s)[2..])
      && (sum.None? ==> r.Stop? && Args(r.stack) == Args(s)[2..])
    ensures |s| >= 4 && !(Decode(Args(s)[0]).Num? && Decode(Args(s)[1]).Num?) ==>
      var r, a := EvalPlus(s), Args(s);
      && r.Go?
      && (a[0] == CONST ==> r.head == a[2] && Args(r.stack) == a[4..])
      && (a[0] != CONST ==> r.head == a[0] && Args(r.stack) == [Apply(Apply(a[1], a[2]), a[3])] + a[4..])
  {
    if |s| >= 4 {
      ArgsPop(s, 2);
      ArgsPop(s, 4);
      ArgsPush(s[..|s| - 4], Apply(Apply(s[|s| - 2], s[|s| - 3]), s[|s| - 4]));
    }
  }

  function EvalMinus(s: seq<Value>): Move {
    if |s| < 2 then Stop(s)
    else
      var m, n := s[|s| - 1], s[|s| - 2];
      var rest := s[..|s| - 2];
      if m == PLUS && (n == PLUS_MINUS || n == ONE) then Go(ROTATE, rest)
      else if m == MINUS && n == MINUS then Go(ZERO, rest)
      else if m != PLUS && m != MINUS && Decode(m).Num? && Decode(n).Num? then
        Go(Number(SaturatingSub(Decode(m).n, Decode(n).n)), rest)
      else Go(n, rest + [m] + [PRED])
  }

  /** `MINUS m n`: the literal toggles `MINUS PLUS n` (for `n` one of
      `PLUS MINUS` and `ONE`) give `ROTATE` and `MINUS MINUS MINUS` gives
      `ZERO`; two numerals give their saturating difference; otherwise the
      result is `n PRED m`. */
  lemma MinusRule(s: seq<Value>)
    ensures |s| < 2 ==> EvalMinus(s) == Stop(s)
    ensures |s| >= 2 ==>
      var r, a := EvalMinus(s), Args(s);
      var m, n := a[0], a[1];
      && r.Go?
      && (m == PLUS && (n == PLUS_MINUS || n == ONE) ==> r.head == ROTATE && Args(r.stack) == a[2..])
      && (m == MINUS && n == MINUS ==> r.head == ZERO && Args(r.stack) == a[2..])
      && (Decode(m).Num? && Decode(n).Num? ==>
            r.head == Number(SaturatingSub(Decode(m).n, Decode(n).n)) && Args(r.stack) == a[2..])
      && (!(m == PLUS && (n == PLUS_MINUS || n == ONE)) && !(m == MINUS && n == MINUS)
            && !(Decode(m).Num? && Decode(n).Num?) ==>
            r.head == n && Args(r.stack) == [PRED, m] + a[2..])
  {
    if |s| >= 2 {
      var rest := s[..|s| - 2];
      ArgsPop(s, 2);
      ArgsPush(rest, s[|s| - 1]);
      ArgsPush(rest + [s[|s| - 1]], PRED);
    }
  }

  function EvalPred(s: seq<Value>): Move {
    if |s| < 3 then Stop(s)
    else
      var m := s[|s| - 1];
      if Decode(m).Num? then Go(Number(SaturatingSub(Decode(m).n, 1)), s[..|s| - 1])
      else
        var f, x := s[|s| - 2], s[|s| - 3];
        var rest := s[..|s| - 3];
        if m == PRED then Go(ONE, rest)
        else Go(m, rest + [ONE] + [Bind(CONST, x)] + [Bind(WRAP, f)])
  }

  /** `PRED m f x`: a numeral `m` gives its saturating predecessor,
      consuming only `m`; `PRED PRED f x` is `ONE`; otherwise the result is
      `m (WRAP f) (CONST x) ONE`, the two applications built with `bind`. */
  lemma PredRule(s: seq<Value>)
    ensures |s| < 3 ==> EvalPred(s) == Stop(s)
    ensures |s| >= 3 ==>
      var r, a := EvalPred(s), Args(s);
      && r.Go?
      && (Decode(a[0]).Num? ==>
            r.head == Number(SaturatingSub(Decode(a[0]).n, 1)) && Args(r.stack) == a[1..])
      && (a[0] == PRED ==> r.head == ONE && Args(r.stack) == a[3..])
      && (!Decode(a[0]).Num? && a[0] != PRED ==>
            r.head == a[0] && Args(r.stack) == [Bind(WRAP, a[1]), Bind(CONST, a[2]), ONE] + a[3..])
  {
    if |s| >= 3 {
      var f, x := s[|s| - 2], s[|s| - 3];
      var rest := s[..|s| - 3];
      ArgsPop(s, 1);
      ArgsPop(s, 3);
      ArgsPush(rest, ONE);
      ArgsPush(rest + [ONE], Bind(CONST, x));
      ArgsPush(rest + [ONE] + [Bind(CONST, x)], Bind(WRAP, f));
    }
  }

  function EvalWrap(s: seq<Value>): Move {
    if |s| < 3 then Stop(s)
    else
      var f, g, h := s[|s| - 1], s[|s| - 2], s[|s| - 3];
      Go(h, s[..|s| - 3] + [Apply(g, f)])
  }

  /** `WRAP f g h` is `h (g f)`. */
  lemma WrapRule(s: seq<Value>)
    ensures |s| < 3 ==> EvalWrap(s) == Stop(s)
    ensures |s| >= 3 ==>
      var r, a := EvalWrap(s), Args(s);
      r.Go? && r.head == a[2] && Args(r.stack) == [Apply(a[1], a[0])] + a[3..]
  {
    if |s| >= 3 {
      ArgsPop(s, 3);
      ArgsPush(s[..|s| - 3], Apply(s[|s| - 2], s[|s| - 1]));
    }
  }

  function EvalConst(s: seq<Value>): Move {
    if |s| < 2 then Stop(s) else Go(s[|s| - 1], s[..|s| - 2])
  }

  /** `CONST x y` is `x`. */
  lemma ConstRule(s: seq<Value>)
    ensures |s| < 2 ==> EvalConst(s) == Stop(s)
    ensures |s| >= 2 ==>
      EvalConst(s).Go? && EvalConst(s).head == Args(s)[0] && Args(EvalConst(s).stack) == Args(s)[2..]
  {
    if |s| >= 2 {
      ArgsPop(s, 2);
    }
  }

  function EvalRotate(s: seq<Value>): Move {
    if |s| < 3 then Stop(s)
    else
      var x, y := s[|s| - 1], s[|s| - 2];
      if y == ROTATE && x == CONST then Go(ZERO, s[..|s| - 2])
      else if y == ROTATE && x == ZERO then Go(CONST, s[..|s| - 2])
      else
        var z := s[|s| - 3];
        Go(y, s[..|s| - 3] + [x] + [z])
  }

  /** `ROTATE x y z` is `y z x`, except that `ROTATE CONST ROTATE` is `ZERO`
      and `ROTATE ZERO ROTATE` is `CONST`, both leaving `z` in place. */
  lemma RotateRule(s: seq<Value>)
    ensures |s| < 3 ==> EvalRotate(s) == Stop(s)
    ensures |s| >= 3 ==>
      var r, a := EvalRotate(s), Args(s);
      && r.Go?
      && (a[1] == ROTATE && a[0] == CONST ==> r.head == ZERO && Args(r.stack) == a[2..])
      && (a[1] == ROTATE && a[0] == ZERO ==> r.head == CONST && Args(r.stack) == a[2..])
      && (!(a[1] == ROTATE && (a[0] == CONST || a[0] == ZERO)) ==>
            r.head == a[1] && Args(r.stack) == [a[2], a[0]] + a[3..])
  {
    if |s| >= 3 {
      var x, z := s[|s| - 1], s[|s| - 3];
      var rest := s[..|s| - 3];
      ArgsPop(s, 2);
      ArgsPop(s, 3);
      ArgsPush(rest, x);
      ArgsPush(rest + [x], z);
    }
  }

  function EvalZero(s: seq<Value>): Move {
    if |s| < 2 then Stop(s) else Go(s[|s| - 2], s[..|s| - 2])
  }

  /** `ZERO x y` is `y`. */
  lemma ZeroRule(s: seq<Value>)
    ensures |s| < 2 ==> EvalZero(s) == Stop(s)
    ensures |s| >= 2 ==>
      EvalZero(s).Go? && EvalZero(s).head == Args(s)[1] && Args(EvalZero(s).stack) == Args(s)[2..]
  {
    if |s| >= 2 {
      ArgsPop(s, 2);
    }
  }

  function EvalOne(s: seq<Value>): Move {
    if |s| < 1 then Stop(s) else Go(s[|s| - 1], s[..|s| - 1])
  }

  /** `ONE x` is `x`. */
  lemma OneRule(s: seq<Value>)
    ensures |s| < 1 ==> EvalOne(s) == Stop(s)
    ensures |s| >= 1 ==>
      EvalOne(s).Go? && EvalOne(s).head == Args(s)[0] && Args(EvalOne(s).stack) == Args(s)[1..]
  {
    if |s| >= 1 {
      ArgsPop(s, 1);
    }
  }

  /** The shortcut `eval_number` takes for a numeral of magnitude `i`
      applied to `f`: a power when `f` is a numeral, a product when `f` is
      `n PLUS` for a numeral `n`, and `None` when neither applies or the
      result leaves 32 bits. */
  function NumberShortcut(i: bv32, f: Value): Option<Value> {
    match Decode(f)
    case Pair(n, v) => if v == PLUS && Decode(n).Num? then NumberOf(CheckedMul(i, Decode(n).n)) else None
    case Num(j) => NumberOf(CheckedPow(j, i as int))
    case _ => None
  }

  /** A numeral of magnitude `i` whose first argument `f` has already been
      popped; the stack holds at least the second argument `x`. */
  function EvalNumber(i: bv32, f: Value, s: seq<Value>): Move
    requires |s| >= 1
  {
    match NumberShortcut(i, f)
    case Some(v) => Go(v, s)
    case None =>
      if i == 0 then Overflow
      else Go(f, s[..|s| - 1] + [Apply(Apply(Number(i - 1), f), s[|s| - 1])])
  }

  /** `i f x`: the shortcut when it applies, and otherwise `f ((i - 1) f x)`,
      where the source's unchecked `i - 1` overflows for `i` of 0. */
  lemma NumberRule(i: bv32, f: Value, s: seq<Value>)
    requires |s| >= 1
    ensures NumberShortcut(i, f).Some? ==> EvalNumber(i, f, s) == Go(NumberShortcut(i, f).value, s)
    ensures NumberShortcut(i, f).None? && i == 0 ==> EvalNumber(i, f, s) == Overflow
    ensures NumberShortcut(i, f).None? && i != 0 ==>
      var r := EvalNumber(i, f, s);
      r.Go? && r.head == f && Args(r.stack) == [Apply(Apply(Number(i - 1), f), Args(s)[0])] + Args(s)[1..]
  {
    var sc := NumberShortcut(i, f);
    if sc.None? && i != 0 {
      var t := Apply(Apply(Number(i - 1), f), s[|s| - 1]);
      assert EvalNumber(i, f, s) == Go(f, s[..|s| - 1] + [t]);
      ArgsPop(s, 1);
      ArgsPush(s[..|s| - 1], t);
    }
  }

  // ---------------------------------------------------------------------
  // Contexts
  // ---------------------------------------------------------------------

  /** The two evaluation contexts: `Pure` re-applies leftover arguments;
      `Decoder` counts marker increments into a byte accumulator, `None`
      once the count is no longer a byte. */
  datatype Context = Pure | Decoder(acc: Option<bv8>)

  /** What `Decoder` makes of a finished reduction. */
  datatype Leaf = True | Byte(b: bv8) | Invalid

  /** `Decoder::add`'s new accumulator: a checked `u8` sum for a count
      below 256, and `None` is absorbing. */
  function NextAcc(acc: Option<bv8>, n: bv32): Option<bv8> {
    match acc
    case Some(m) => if n < 256 then CheckedAddU8(m, n as bv8) else None
    case None => None
  }

  /** The accumulator counts exactly: it stays a byte while the running
      total stays below 256 and is lost for good otherwise. */
  lemma NextAccCounts(acc: Option<bv8>, n: bv32)
    ensures acc.None? || n >= 256 ==> NextAcc(acc, n).None?
    ensures acc.Some? && n < 256 ==>
      (NextAcc(acc, n).Some? <==> (acc.value as bv32) + n <= 0xff)
    ensures acc.Some? && n < 256 && NextAcc(acc, n).Some? ==>
      (NextAcc(acc, n).value as bv32) == (acc.value as bv32) + n
  {
    if acc.Some? && n < 256 {
      var m, k := acc.value, n as bv8;
      NarrowByte(n);
      CheckedAddU8Fits(m, k);
      CheckedAddU8Sum(m, k);
      assert NextAcc(acc, n) == CheckedAddU8(m, k);
    }
  }

  /** `Pure::result`: folds `apply` over the leftover stack from its bottom
      (index 0) upwards. */
  function PureResult(x: Value, s: seq<Value>): Value
    decreases |s|
  {
    if s == [] then x else PureResult(Apply(x, s[0]), s[1..])
  }

  /** `Decoder::result`. */
  function DecoderResult(acc: Option<bv8>, x: Value, s: seq<Value>): (r: Leaf)
    ensures s != [] ==> r == Invalid
    ensures r == True <==> s == [] && acc == Some(0) && x == MARKER_INC
    ensures r.Byte? <==> s == [] && acc.Some? && x == MARKER_INIT
    ensures r.Byte? ==> r.b == acc.value
  {
    if s != [] then Invalid
    else if acc == Some(0) && x == MARKER_INC then True
    else if acc.Some? && x == MARKER_INIT then Byte(acc.value)
    else Invalid
  }

  // ---------------------------------------------------------------------
  // The trampoline
  // ---------------------------------------------------------------------

  datatype Machine = Machine(head: Value, stack: seq<Value>, ctx: Context)

  /** One turn of the loop in `eval`: go on with a new machine, leave the
      loop with the machine as it stands, or panic. */
  datatype Transition = Running(next: Machine) | Halted(last: Machine) | Crashed(crash: Crash)

  function Lift(mv: Move, m: Machine): Transition {
    match mv
    case Go(h, s) => Running(Machine(h, s, m.ctx))
    case Stop(s) => Halted(Machine(m.head, s, m.ctx))
    case Overflow => Crashed(Underflow)
  }

  /** `Context::add(n, stack)` with the stack `s` left after the marker was
      consumed. `Decoder` acts only when exactly one item is left, which
      becomes the new head; `Pure` must never get here. */
  function Add(m: Machine, n: bv32, s: seq<Value>): Transition {
    match m.ctx
    case Pure => Crashed(Unreachable)
    case Decoder(acc) =>
      if |s| != 1 then Halted(Machine(m.head, s, m.ctx))
      else Running(Machine(s[0], [], Decoder(NextAcc(acc, n))))
  }

  /** Where `eval` hands control to the context: the head is `MARKER_INC`,
      or a numeral other than the literals `ZERO` and `ONE` whose first
      argument is `MARKER_INC`. */
  predicate AtMarker(m: Machine) {
    m.head == MARKER_INC
    || (m.head != ZERO && m.head != ONE && Decode(m.head).Num?
        && |m.stack| >= 2 && m.stack[|m.stack| - 1] == MARKER_INC)
  }

  /** The literal heads `eval` dispatches to a step function. */
  predicate StepHead(h: Value) {
    h == PLUS || h == MINUS || h == PRED || h == WRAP || h == CONST
    || h == ROTATE || h == ZERO || h == ONE
  }

  /** The step function `eval` calls for a literal head. */
  function Dispatch(h: Value, s: seq<Value>): Move
    requires StepHead(h)
  {
    if h == PLUS then EvalPlus(s)
    else if h == MINUS then EvalMinus(s)
    else if h == PRED then EvalPred(s)
    else if h == WRAP then EvalWrap(s)
    else if h == CONST then EvalConst(s)
    else if h == ROTATE then EvalRotate(s)
    else if h == ZERO then EvalZero(s)
    else EvalOne(s)
  }

  function Step(m: Machine): Transition {
    var h, s := m.head, m.stack;
    if StepHead(h) then Lift(Dispatch(h, s), m)
    else if h == MARKER_INC then Add(m, 1, s)
    else
      match Decode(h)
      case Pair(u, v) => Running(Machine(u, s + [v], m.ctx))
      case Num(i) =>
        if |s| >= 2 then
          var f := s[|s| - 1];
          if f == MARKER_INC then Add(m, i, s[..|s| - 1])
          else Lift(EvalNumber(i, f, s[..|s| - 1]), m)
        else Halted(m)
      case _ => Halted(m)
  }

  /** `Pure::add`'s `unreachable!()` is reached exactly when a `Pure`
      machine hands control to its context. */
  lemma StepReachesAdd(m: Machine)
    ensures Step(m).Crashed? && Step(m).crash == Unreachable <==> m.ctx.Pure? && AtMarker(m)
  {
  }

  /** Only the context's `add` changes the context, and a machine that
      leaves the loop keeps its head. */
  lemma StepKeepsContext(m: Machine)
    ensures Step(m).Running? && !AtMarker(m) ==> Step(m).next.ctx == m.ctx
    ensures Step(m).Halted? ==> Step(m).last.head == m.head && Step(m).last.ctx == m.ctx
  {
  }

  /** `eval_number`'s `i - 1` overflows exactly for a numeral head of
      magnitude 0 that is not the literal `ZERO` (which has its own step
      function), applied to a first argument that is neither
      `MARKER_INC` nor a shortcut for `apply`. */
  lemma StepUnderflows(m: Machine)
    ensures Step(m) == Crashed(Underflow) <==>
      && !StepHead(m.head) && m.head != MARKER_INC
      && Decode(m.head) == Num(0) && |m.stack| >= 2
      && m.stack[|m.stack| - 1] != MARKER_INC
      && NumberShortcut(0, m.stack[|m.stack| - 1]).None?
  {
  }

  /** An application head is unwound: its function becomes the head and its
      argument the new first argument. */
  lemma StepUnwinds(m: Machine)
    requires !StepHead(m.head) && Decode(m.head).Pair?
    ensures Step(m).Running?
    ensures Step(m).next.head == Decode(m.head).fun
    ensures Args(Step(m).next.stack) == [Decode(m.head).arg] + Args(m.stack)
    ensures Step(m).next.ctx == m.ctx
  {
    ArgsPush(m.stack, Decode(m.head).arg);
  }

  /** A run of the loop: it leaves the loop with a final machine, panics,
      or has not finished within the step budget. */
  datatype Run = Finished(last: Machine) | Panicked(crash: Crash) | Exhausted

  /** Runs a step function for at most `fuel` turns. */
  function Iterate(step: Machine -> Transition, m: Machine, fuel: nat): Run
    decreases fuel
  {
    if fuel == 0 then Exhausted
    else
      match step(m)
      case Running(next) => Iterate(step, next, fuel - 1)
      case Halted(last) => Finished(last)
      case Crashed(c) => Panicked(c)
  }

  /** The loop of `eval`, for at most `fuel` turns. */
  function Reduce(m: Machine, fuel: nat): Run {
    Iterate(Step, m, fuel)
  }

  /** More fuel never changes a run that has finished or panicked. */
  lemma {:induction false} IterateMonotone(step: Machine -> Transition, m: Machine, fuel: nat, more: nat)
    requires fuel <= more && !Iterate(step, m, fuel).Exhausted?
    ensures Iterate(step, m, more) == Iterate(step, m, fuel)
    decreases fuel
  {
    if step(m).Running? {
      IterateMonotone(step, step(m).next, fuel - 1, more - 1);
    }
  }

  /** More fuel never changes a run of `eval` that has finished or panicked. */
  lemma ReduceMonotone(m: Machine, fuel: nat, more: nat)
    requires fuel <= more && !Reduce(m, fuel).Exhausted?
    ensures Reduce(m, more) == Reduce(m, fuel)
  {
    IterateMonotone(Step, m, fuel, more);
  }

  /** A run that starts in a `Decoder` context never reaches `Pure::add`'s
      `unreachable!()`, and every run keeps its kind of context. */
  lemma {:induction false} IterateKeepsContextKind(step: Machine -> Transition, m: Machine, fuel: nat)
    requires forall n: Machine :: KindKept(n, step(n))
    ensures m.ctx.Decoder? ==> Iterate(step, m, fuel) != Panicked(Unreachable)
    ensures Iterate(step, m, fuel).Finished? ==> Iterate(step, m, fuel).last.ctx.Pure? == m.ctx.Pure?
    decreases fuel
  {
    if fuel > 0 {
      assert KindKept(m, step(m));
      if step(m).Running? {
        IterateKeepsContextKind(step, step(m).next, fuel - 1);
      }
    }
  }

  /** The step keeps the kind of context and panics on `unreachable!()`
      only in a `Pure` context. */
  predicate KindKept(m: Machine, t: Transition) {
    && (t.Running? ==> t.next.ctx.Pure? == m.ctx.Pure?)
    && (t.Halted? ==> t.last.ctx.Pure? == m.ctx.Pure?)
    && (t == Crashed(Unreachable) ==> m.ctx.Pure?)
  }

  lemma StepKeepsKind(m: Machine)
    ensures KindKept(m, Step(m))
  {
    StepReachesAdd(m);
    StepKeepsContext(m);
  }

  lemma ReduceKeepsContextKind(m: Machine, fuel: nat)
    ensures m.ctx.Decoder? ==> Reduce(m, fuel) != Panicked(Unreachable)
    ensures Reduce(m, fuel).Finished? ==> Reduce(m, fuel).last.ctx.Pure? == m.ctx.Pure?
  {
    forall n: Machine
      ensures KindKept(n, Step(n))
    {
      StepKeepsKind(n);
    }
    IterateKeepsContextKind(Step, m, fuel);
  }

  /** The trampoline as a loop, with the step budget as a bound. */
  method Trampoline(step: Machine -> Transition, m0: Machine, fuel: nat) returns (r: Run)
    ensures r == Iterate(step, m0, fuel)
  {
    var m := m0;
    var left: nat := fuel;
    while left > 0
      invariant left <= fuel
      invariant Iterate(step, m, left) == Iterate(step, m0, fuel)
      decreases left
    {
      var t := step(m);
      match t
      case Running(next) =>
        m := next;
        left := left - 1;
      case Halted(last) =>
        return Finished(last);
      case Crashed(c) =>
        return Panicked(c);
    }
    return Exhausted;
  }

  /** `eval`'s loop over the machine. */
  method RunMachine(m0: Machine, fuel: nat) returns (r: Run)
    ensures r == Reduce(m0, fuel)
  {
    r := Trampoline(Step, m0, fuel);
  }

  /** How `eval` ends: a result, a panic, or no result within the budget. */
  datatype Outcome<T> = Done(result: T) | Crash(crash: Crash) | NoFuel

  /** `eval::<Pure>`: reduce from an empty stack and re-apply what is left. */
  function EvalPure(v: Value, fuel: nat): Outcome<Value> {
    match Reduce(Machine(v, [], Pure), fuel)
    case Finished(last) => Done(PureResult(last.head, last.stack))
    case Panicked(c) => Crash(c)
    case Exhausted => NoFuel
  }

  /** `eval::<Decoder>`: reduce from the two markers with a zero count. */
  function EvalDecoder(v: Value, fuel: nat): Outcome<Leaf> {
    var start := Machine(v, [MARKER_INIT, MARKER_INC], Decoder(Some(0)));
    ReduceKeepsContextKind(start, fuel);
    match Reduce(start, fuel)
    case Finished(last) => Done(DecoderResult(last.ctx.acc, last.head, last.stack))
    case Panicked(c) => Crash(c)
    case Exhausted => NoFuel
  }
}

=== FILE: ints.dfy ===
/** Rust's fixed-width integer primitives used by the interpreter core.

    `u64`, `u32` and `u8` are the bitvector types `bv64`, `bv32` and `bv8`.
    A sum or product of two `u32` values is formed exactly on 64 bits (the
    operands zero-extended), and the result is kept only when it fits in 32
    bits, which is what the standard library's checked operations promise. */
module Ints {

  datatype Option<+T> = None | Some(value: T)

  /** The exact value of a `u32`, zero-extended to 64 bits. */
  function Wide(n: bv32): bv64 {
    n as bv64
  }

  const U32_MAX: bv64 := 0xffff_ffff

  /** `u32::checked_add`: the sum, or `None` when it does not fit in 32 bits. */
  function CheckedAdd(a: bv32, b: bv32): Option<bv32> {
    var sum := Wide(a) + Wide(b);
    if sum <= U32_MAX then Some(sum as bv32) else None
  }

  /** `u32::checked_mul`: the product, or `None` when it does not fit in 32 bits. */
  function CheckedMul(a: bv32, b: bv32): Option<bv32> {
    var product := Wide(a) * Wide(b);
    if product <= U32_MAX then Some(product as bv32) else None
  }

  /** `u32::checked_pow`: `base` raised to `exp`, or `None` as soon as a
      partial power leaves 32 bits. For a base of 0 or 1 the partial powers
      never grow and for a larger base they only grow, so this is `None`
      exactly when the true power does not fit. */
  function CheckedPow(base: bv32, exp: nat): Option<bv32> {
    if exp == 0 then Some(1)
    else
      match CheckedPow(base, exp - 1)
      case None => None
      case Some(p) => CheckedMul(p, base)
  }

  /** `u32::saturating_sub`: the difference, clamped at zero. */
  function SaturatingSub(a: bv32, b: bv32): bv32 {
    if a >= b then a - b else 0
  }

  /** `u8::checked_add`. */
  function CheckedAddU8(a: bv8, b: bv8): Option<bv8> {
    var sum := (a as bv32) + (b as bv32);
    if sum <= 0xff then Some(sum as bv8) else None
  }

  lemma CheckedAddU8Fits(a: bv8, b: bv8)
    ensures CheckedAddU8(a, b).Some? <==> (a as bv32) + (b as bv32) <= 0xff
  {
  }

  lemma CheckedAddU8Sum(a: bv8, b: bv8)
    ensures CheckedAddU8(a, b).Some? ==> CheckedAddU8(a, b).value as bv32 == (a as bv32) + (b as bv32)
  {
  }

  lemma NarrowByte(n: bv32)
    requires n < 256
    ensures (n as bv8) as bv32 == n
  {
  }
}

=== FILE: laws.dfy ===
/** Properties of the reduction engine: the two contexts on small
    programs, the order in which `Pure` re-applies leftover arguments, the
    agreement of `eval`'s special cases with `apply`, and the two panics
    the source can reach. */
module EvalLaws {
  import opened Ints
  import opened Words
  import opened Shortcuts
  import opened Engine

  /** Decoding `CONST` gives `True`: it discards the byte marker and
      leaves the increment marker with nothing counted. */
  lemma DecodeConst()
    ensures EvalDecoder(CONST, 2) == Done(True)
  {
    var c := Decoder(Some(0));
    assert Step(Machine(CONST, [MARKER_INIT, MARKER_INC], c)) == Running(Machine(MARKER_INC, [], c));
    assert Step(Machine(MARKER_INC, [], c)) == Halted(Machine(MARKER_INC, [], c));
  }

  /** Decoding `ZERO` gives the byte 0: the increment marker is discarded
      without being counted. */
  lemma DecodeZero()
    ensures EvalDecoder(ZERO, 2) == Done(Byte(0))
  {
    var c := Decoder(Some(0));
    assert Step(Machine(ZERO, [MARKER_INIT, MARKER_INC], c)) == Running(Machine(MARKER_INIT, [], c));
    assert Step(Machine(MARKER_INIT, [], c)) == Halted(Machine(MARKER_INIT, [], c));
  }

  /** Decoding `ONE` gives the byte 1: the increment marker is applied once
      to the byte marker. */
  lemma DecodeOne()
    ensures EvalDecoder(ONE, 3) == Done(Byte(1))
  {
    var c := Decoder(Some(0));
    assert Step(Machine(ONE, [MARKER_INIT, MARKER_INC], c)) == Running(Machine(MARKER_INC, [MARKER_INIT], c));
    assert Step(Machine(MARKER_INC, [MARKER_INIT], c)) == Running(Machine(MARKER_INIT, [], Decoder(Some(1))));
    assert Step(Machine(MARKER_INIT, [], Decoder(Some(1)))) == Halted(Machine(MARKER_INIT, [], Decoder(Some(1))));
  }

  // ---------------------------------------------------------------------
  // Leftover arguments under `Pure`
  // ---------------------------------------------------------------------

  /** `Pure::result` applies the top of the stack, which is the head's
      first pending argument, last. */
  lemma {:induction false} PureResultTopLast(x: Value, s: seq<Value>, v: Value)
    ensures PureResult(x, s + [v]) == Apply(PureResult(x, s), v)
    decreases |s|
  {
    if s == [] {
      assert (s + [v])[1..] == [];
    } else {
      assert (s + [v])[0] == s[0];
      assert (s + [v])[1..] == s[1..] + [v];
      PureResultTopLast(Apply(x, s[0]), s[1..], v);
    }
  }

  /** So two leftover arguments come back in the wrong order: the machine
      `PLUS` with pending `CONST`, `MINUS` (the term `PLUS CONST MINUS`)
      yields `(PLUS MINUS) CONST`, while applying the arguments in order
      would give `CONST`. */
  lemma PureResultReverses()
    ensures Args([MINUS, CONST]) == [CONST, MINUS]
    ensures Apply(Apply(PLUS, CONST), MINUS) == CONST
    ensures PureResult(PLUS, [MINUS, CONST]) == Bind(PLUS_MINUS, CONST)
    ensures PureResult(PLUS, [MINUS, CONST]) != CONST
  {
    PlusConstMinus();
    var s: seq<Value> := [MINUS, CONST];
    assert s[1..] == [CONST] && [CONST][1..] == [];
    assert PureResult(PLUS, s) == PureResult(PLUS_MINUS, [CONST]);
    assert PureResult(PLUS_MINUS, [CONST]) == Apply(PLUS_MINUS, CONST);
  }

  lemma PlusConstMinus()
    ensures Apply(Apply(PLUS, CONST), MINUS) == CONST
    ensures Apply(PLUS, MINUS) == PLUS_MINUS
    ensures Apply(PLUS_MINUS, CONST) == Bind(PLUS_MINUS, CONST)
    ensures Bind(PLUS_MINUS, CONST) != CONST
  {
    ApplyLiterals(MINUS);
    LiteralsDecode();
    ApplyConstLaw(CONST_CONST, CONST, MINUS);
    ApplyPrimitives(0, 1);
    BindPrimitives(0, 1);
    ApplyBindsToNonNumeral(PLUS_MINUS, CONST);
    BindDecodesAsPair(PLUS_MINUS, CONST);
    PrimitiveDecodes(4);
  }

  lemma ApplyBindsToNonNumeral(f: Value, x: Value)
    requires Decode(f) == Pair(PLUS, MINUS)
    ensures Apply(f, x) == Bind(f, x)
  {
    NotLiteralHead(f);
    LiteralsDecode();
  }

  // ---------------------------------------------------------------------
  // The two panics
  // ---------------------------------------------------------------------

  /** A word built by `apply` can decode as `MARKER_INC` applied to `ZERO`
      (see `Words.BindForgesMarker`), so `eval::<Pure>` reaches the
      `unreachable!()` of `Pure::add` on the term `PLUS 805306368`. */
  lemma PureReachesUnreachable()
    ensures EvalPure(Apply(PLUS, Number(0x3000_0000)), 2) == Crash(Unreachable)
  {
    var t := Apply(PLUS, Number(0x3000_0000));
    ForgedTerm();
    var m := Machine(t, [], Pure);
    StepUnwinds(m);
    ArgsFromOne(Step(m).next.stack, ZERO);
    var n := Step(m).next;
    assert n.head == MARKER_INC && n.ctx == Pure;
    StepReachesAdd(n);
  }

  lemma ForgedTerm()
    ensures Apply(PLUS, Number(0x3000_0000)) == Bind(PLUS, Number(0x3000_0000))
    ensures !StepHead(Bind(PLUS, Number(0x3000_0000)))
    ensures Decode(Bind(PLUS, Number(0x3000_0000))) == Pair(MARKER_INC, ZERO)
  {
    BindForgesMarker();
    LiteralsDecode();
  }

  lemma ArgsFromOne(s: seq<Value>, v: Value)
    requires Args(s) == [v]
    ensures s == [v]
  {
    assert s[0] == Args(s)[0];
  }

  /** `number(1 << 30)` decodes with magnitude 0, and `eval_number`'s
      `i - 1` then overflows on the term `1073741824 PLUS PLUS`. */
  lemma PureUnderflows()
    ensures EvalPure(Apply(Apply(Number(0x4000_0000), PLUS), PLUS), 3) == Crash(Underflow)
  {
    UnderflowTerm();
    UnderflowUnwinds();
    UnderflowCrashes();
  }

  lemma UnderflowUnwinds()
    ensures var n := Number(0x4000_0000);
      && Step(Machine(Heap(Heap(n, PLUS), PLUS), [], Pure)) == Running(Machine(Heap(n, PLUS), [PLUS], Pure))
      && Step(Machine(Heap(n, PLUS), [PLUS], Pure)) == Running(Machine(n, [PLUS, PLUS], Pure))
  {
  }

  lemma UnderflowCrashes()
    ensures Step(Machine(Number(0x4000_0000), [PLUS, PLUS], Pure)) == Crashed(Underflow)
  {
    UnderflowTerm();
    var s: seq<Value> := [PLUS, PLUS];
    assert s[..1] == [PLUS];
    LiteralsDecode();
    assert EvalNumber(0, PLUS, [PLUS]) == Overflow;
  }

  lemma UnderflowNumeral()
    ensures Decode(Number(0x4000_0000)) == Num(0)
    ensures PairWidth(Number(0x4000_0000)) == Ptr
    ensures Number(0x4000_0000) != ZERO && Number(0x4000_0000) != ONE
    ensures !StepHead(Number(0x4000_0000)) && Number(0x4000_0000) != MARKER_INC
  {
    NumberDecodes(0x4000_0000);
    NumberWidth(0x4000_0000);
    assert Number(0x4000_0000).raw == 0x4_0000_0002;
  }

  lemma UnderflowTerm()
    ensures Decode(Number(0x4000_0000)) == Num(0)
    ensures Number(0x4000_0000) != ZERO && Number(0x4000_0000) != ONE
    ensures !StepHead(Number(0x4000_0000)) && Number(0x4000_0000) != MARKER_INC
    ensures Apply(Number(0x4000_0000), PLUS) == Heap(Number(0x4000_0000), PLUS)
    ensures Apply(Heap(Number(0x4000_0000), PLUS), PLUS) == Heap(Heap(Number(0x4000_0000), PLUS), PLUS)
  {
    var n := Number(0x4000_0000);
    UnderflowNumeral();
    PrimitiveDecodes(0);
    NotLiteralHead(n);
    BindWidth(n, PLUS);
    BindWidth(Heap(n, PLUS), PLUS);
  }

  // ---------------------------------------------------------------------
  // `eval`'s special cases against `apply`
  // ---------------------------------------------------------------------

  /** A numeral head takes the same shortcut `apply` takes for it: the
      power or product when it fits in 32 bits, and otherwise `apply`
      binds. */
  lemma NumberAgreesWithApply(g: Value, i: bv32, f: Value)
    requires Decode(g) == Num(i) && g != ZERO && g != ONE
    ensures NumberShortcut(i, f).Some? ==> Apply(g, f) == NumberShortcut(i, f).value
    ensures NumberShortcut(i, f).None? ==> Apply(g, f) == Bind(g, f)
  {
    NotLiteralHead(g);
  }

  /** `PLUS m n` on two numerals agrees with `apply` whenever `PLUS m`
      survives `bind` and the sum fits. */
  lemma PlusAgreesWithApply(s: seq<Value>)
    requires |s| >= 4
    requires Decode(Args(s)[0]).Num? && Decode(Args(s)[1]).Num?
    requires Fits(PLUS, Args(s)[0])
    requires CheckedAdd(Decode(Args(s)[0]).n, Decode(Args(s)[1]).n).Some?
    ensures EvalPlus(s).Go? && EvalPlus(s).head == Apply(Apply(PLUS, Args(s)[0]), Args(s)[1])
  {
    var m, n := Args(s)[0], Args(s)[1];
    PlusRule(s);
    LiteralsDecode();
    PrimitiveDecodes(4);
    assert m != CONST;
    assert Apply(PLUS, m) == Bind(PLUS, m);
    BindRoundTrip(PLUS, m);
    ApplyAddLaw(Bind(PLUS, m), m, n, Decode(m).n, Decode(n).n);
  }

  /** `MINUS m n` agrees with `apply` on the literal toggles and, whenever
      `MINUS m` survives `bind`, on two numerals. */
  lemma MinusAgreesWithApply(s: seq<Value>)
    requires |s| >= 2
    ensures var a := Args(s);
      (a[0] == PLUS && (a[1] == PLUS_MINUS || a[1] == ONE)) || (a[0] == MINUS && a[1] == MINUS)
      ==> EvalMinus(s).head == Apply(Apply(MINUS, a[0]), a[1])
    ensures var a := Args(s);
      Decode(a[0]).Num? && Decode(a[1]).Num? && Fits(MINUS, a[0])
      ==> EvalMinus(s).head == Apply(Apply(MINUS, a[0]), a[1])
  {
    var m, n := Args(s)[0], Args(s)[1];
    MinusRule(s);
    ApplyPrimitives(1, 0);
    ApplyPrimitives(1, 1);
    ApplyLiterals(n);
    if Decode(m).Num? && Decode(n).Num? && Fits(MINUS, m) {
      LiteralsDecode();
      PrimitiveDecodes(1);
      NotLiteralHead(MINUS);
      assert Apply(MINUS, m) == Bind(MINUS, m);
      BindRoundTrip(MINUS, m);
      ApplySubLaw(Bind(MINUS, m), m, n, Decode(m).n, Decode(n).n);
    }
  }

  /** `ROTATE CONST ROTATE` agrees with `apply`; `ROTATE ZERO ROTATE` does
      not, because `bind(ROTATE, ZERO)` is never the literal `ROTATE_ZERO`
      that `apply` matches. */
  lemma RotateAgainstApply(s: seq<Value>)
    requires |s| >= 3
    ensures Args(s)[1] == ROTATE && Args(s)[0] == CONST ==>
      EvalRotate(s).head == ZERO == Apply(Apply(ROTATE, CONST), ROTATE)
    ensures Args(s)[1] == ROTATE && Args(s)[0] == ZERO ==>
      EvalRotate(s).head == CONST != Apply(Apply(ROTATE, ZERO), ROTATE)
  {
    RotateRule(s);
    RotateConst();
    RotateZero();
  }

  lemma RotateConst()
    ensures Apply(Apply(ROTATE, CONST), ROTATE) == ZERO
  {
    ApplyPrimitives(5, 4);
    ApplyLiterals(ROTATE);
  }

  lemma RotateZero()
    ensures Apply(ROTATE, ZERO) == Bind(ROTATE, ZERO)
    ensures Apply(Apply(ROTATE, ZERO), ROTATE) == Bind(Bind(ROTATE, ZERO), ROTATE)
    ensures Apply(Apply(ROTATE, ZERO), ROTATE) != CONST
  {
    var f := Bind(ROTATE, ZERO);
    LiteralsDecode();
    PrimitiveDecodes(5);
    PrimitiveDecodes(4);
    NotLiteralHead(ROTATE);
    NumberWidth(0);
    BindRoundTrip(ROTATE, ZERO);
    BindAvoidsZeroConstants(ROTATE, ZERO);
    assert Decode(f) == Pair(ROTATE, ZERO);
    assert !LiteralHead(f);
    BindDecodesAsPair(f, ROTATE);
  }
}

=== FILE: parse.dfy ===
/** `Program::parse` of `src/worse.rs`: a postfix reader over bytes. `+`
    and `-` push the primitives `PLUS` and `MINUS`, `.` pops `x` and then
    `y` and pushes `x` applied to `y`, and every other byte is a comment.
    A program is a source that leaves exactly one value on the stack. */
module Program {
  import opened Ints
  import opened Words
  import opened Shortcuts

  const PLUS_BYTE: bv8 := 0x2b
  const MINUS_BYTE: bv8 := 0x2d
  const DOT_BYTE: bv8 := 0x2e

  /** The stack after reading `src` onto `stack`, or `None` once a `.`
      finds fewer than two values. */
  function ParseFrom(stack: seq<Value>, src: seq<bv8>): Option<seq<Value>>
    decreases |src|
  {
    if src == [] then Some(stack)
    else
      var c, rest := src[0], src[1..];
      if c == PLUS_BYTE then ParseFrom(stack + [PLUS], rest)
      else if c == MINUS_BYTE then ParseFrom(stack + [MINUS], rest)
      else if c == DOT_BYTE then
        if |stack| < 2 then None
        else
          var x, y := stack[|stack| - 1], stack[|stack| - 2];
          ParseFrom(stack[..|stack| - 2] + [Apply(x, y)], rest)
      else ParseFrom(stack, rest)
  }

  function Parse(src: seq<bv8>): Option<Value> {
    match ParseFrom([], src)
    case Some(s) => if |s| == 1 then Some(s[0]) else None
    case None => None
  }

  // ---------------------------------------------------------------------
  // Comments
  // ---------------------------------------------------------------------

  predicate IsCode(c: bv8) {
    c == PLUS_BYTE || c == MINUS_BYTE || c == DOT_BYTE
  }

  /** The source with every comment byte removed. */
  function Code(src: seq<bv8>): (r: seq<bv8>)
    ensures |r| <= |src|
    ensures forall i :: 0 <= i < |r| ==> IsCode(r[i])
  {
    if src == [] then []
    else if IsCode(src[0]) then [src[0]] + Code(src[1..])
    else Code(src[1..])
  }

  /** Comment bytes never change what is parsed. */
  lemma {:induction false} ParseFromIgnoresComments(stack: seq<Value>, src: seq<bv8>)
    ensures ParseFrom(stack, src) == ParseFrom(stack, Code(src))
    decreases |src|
  {
    if src != [] {
      var c := src[0];
      if IsCode(c) {
        var t := [c] + Code(src[1..]);
        assert t[0] == c && t[1..] == Code(src[1..]);
        if c == PLUS_BYTE {
          ParseFromIgnoresComments(stack + [PLUS], src[1..]);
        } else if c == MINUS_BYTE {
          ParseFromIgnoresComments(stack + [MINUS], src[1..]);
        } else if |stack| >= 2 {
          var x, y := stack[|stack| - 1], stack[|stack| - 2];
          ParseFromIgnoresComments(stack[..|stack| - 2] + [Apply(x, y)], src[1..]);
        }
      } else {
        ParseFromIgnoresComments(stack, src[1..]);
      }
    }
  }

  lemma ParseIgnoresComments(src: seq<bv8>)
    ensures Parse(src) == Parse(Code(src))
  {
    ParseFromIgnoresComments([], src);
  }

  // ---------------------------------------------------------------------
  // Shape: when a source is a program
  // ---------------------------------------------------------------------

  /** The height of the stack after reading `src` from height `n`,
      counting only pushes and pops, or `None` on a pop from fewer than two
      values. */
  function Height(n: nat, src: seq<bv8>): Option<nat>
    decreases |src|
  {
    if src == [] then Some(n)
    else if src[0] == PLUS_BYTE || src[0] == MINUS_BYTE then Height(n + 1, src[1..])
    else if src[0] == DOT_BYTE then
      if n < 2 then None else Height(n - 1, src[1..])
    else Height(n, src[1..])
  }

  /** Parsing fails exactly when the height walk does, and otherwise
      leaves a stack of the height it predicts: the values applied never
      matter to whether a source parses. */
  lemma {:induction false} ParseFromHeight(stack: seq<Value>, src: seq<bv8>)
    ensures ParseFrom(stack, src).None? <==> Height(|stack|, src).None?
    ensures ParseFrom(stack, src).Some? ==> |ParseFrom(stack, src).value| == Height(|stack|, src).value
    decreases |src|
  {
    if src != [] {
      var c := src[0];
      if c == PLUS_BYTE {
        ParseFromHeight(stack + [PLUS], src[1..]);
      } else if c == MINUS_BYTE {
        ParseFromHeight(stack + [MINUS], src[1..]);
      } else if c == DOT_BYTE {
        if |stack| >= 2 {
          var x, y := stack[|stack| - 1], stack[|stack| - 2];
          ParseFromHeight(stack[..|stack| - 2] + [Apply(x, y)], src[1..]);
        }
      } else {
        ParseFromHeight(stack, src[1..]);
      }
    }
  }

  /** A source is a program exactly when its height walk from the empty
      stack never pops short and ends at one. */
  lemma ParseSucceeds(src: seq<bv8>)
    ensures Parse(src).Some? <==> Height(0, src) == Some(1)
  {
    ParseFromHeight([], src);
  }

  // ---------------------------------------------------------------------
  // Composition
  // ---------------------------------------------------------------------

  /** Reading `a + b` is reading `a` and then reading `b` from where `a`
      left the stack. */
  lemma {:induction false} ParseFromAppend(stack: seq<Value>, a: seq<bv8>, b: seq<bv8>)
    ensures ParseFrom(stack, a + b) ==
      match ParseFrom(stack, a)
      case Some(t) => ParseFrom(t, b)
      case None => None
    decreases |a|
  {
    if a == [] {
      assert a + b == b;
    } else {
      var c := a[0];
      assert (a + b)[0] == c && (a + b)[1..] == a[1..] + b;
      if c == PLUS_BYTE {
        ParseFromAppend(stack + [PLUS], a[1..], b);
      } else if c == MINUS_BYTE {
        ParseFromAppend(stack + [MINUS], a[1..], b);
      } else if c == DOT_BYTE {
        if |stack| >= 2 {
          var x, y := stack[|stack| - 1], stack[|stack| - 2];
          ParseFromAppend(stack[..|stack| - 2] + [Apply(x, y)], a[1..], b);
        }
      } else {
        ParseFromAppend(stack, a[1..], b);
      }
    }
  }

  /** Two programs followed by `.` parse as an application. The `.` pops
      `q`'s value first, so `p q .` is `q`'s value applied to `p`'s. */
  lemma ParseApplication(p: seq<bv8>, q: seq<bv8>)
    requires Parse(p).Some? && Parse(q).Some?
    ensures Parse(p + q + [DOT_BYTE]) == Some(Apply(Parse(q).value, Parse(p).value))
  {
    var u, v := Parse(p).value, Parse(q).value;
    ParseStack(p);
    ParseFromAppend([], p, q);
    ParseOnto([u], q);
    assert ParseFrom([], p) == Some([u]);
    assert ParseFrom([u], q) == Some([u] + [v]);
    assert [u] + [v] == [u, v];
    assert ParseFrom([], p + q) == Some([u, v]);
    ParseFromAppend([], p + q, [DOT_BYTE]);
    var t: seq<Value> := [u, v];
    assert t[..0] + [Apply(v, u)] == [Apply(v, u)];
    assert [DOT_BYTE][1..] == [];
  }

  /** A program leaves exactly its value on the stack. */
  lemma ParseStack(p: seq<bv8>)
    requires Parse(p).Some?
    ensures ParseFrom([], p) == Some([Parse(p).value])
  {
    var t := ParseFrom([], p).value;
    assert t == [t[0]];
  }

  /** A program read on top of an existing stack pushes its value. */
  lemma ParseOnto(below: seq<Value>, q: seq<bv8>)
    requires Parse(q).Some?
    ensures ParseFrom(below, q) == Some(below + [Parse(q).value])
  {
    ParseStack(q);
    ParseFromStacked(below, [], q);
    assert below + [] == below;
  }

  /** Values below the part of the stack a source touches are carried
      along unchanged. */
  lemma {:induction false} ParseFromStacked(below: seq<Value>, stack: seq<Value>, src: seq<bv8>)
    requires ParseFrom(stack, src).Some?
    ensures ParseFrom(below + stack, src) == Some(below + ParseFrom(stack, src).value)
    decreases |src|
  {
    if src != [] {
      var c := src[0];
      if c == PLUS_BYTE {
        assert below + stack + [PLUS] == below + (stack + [PLUS]);
        ParseFromStacked(below, stack + [PLUS], src[1..]);
      } else if c == MINUS_BYTE {
        assert below + stack + [MINUS] == below + (stack + [MINUS]);
        ParseFromStacked(below, stack + [MINUS], src[1..]);
      } else if c == DOT_BYTE {
        var all := below + stack;
        var x, y := stack[|stack| - 1], stack[|stack| - 2];
        assert all[|all| - 1] == x && all[|all| - 2] == y;
        var next := stack[..|stack| - 2] + [Apply(x, y)];
        assert all[..|all| - 2] + [Apply(x, y)] == below + next;
        ParseFromStacked(below, next, src[1..]);
      } else {
        ParseFromStacked(below, stack, src[1..]);
      }
    }
  }

  /** The two one-byte programs, and `+-.`, which applies `MINUS` to
      `PLUS`. */
  lemma ParseExamples()
    ensures Parse([PLUS_BYTE]) == Some(PLUS)
    ensures Parse([MINUS_BYTE]) == Some(MINUS)
    ensures Parse([PLUS_BYTE, MINUS_BYTE, DOT_BYTE]) == Some(MINUS_PLUS)
    ensures Parse([PLUS_BYTE, MINUS_BYTE]) == None
    ensures Parse([DOT_BYTE]) == None
  {
    var plus, minus, dot: seq<bv8> := [PLUS_BYTE], [MINUS_BYTE], [DOT_BYTE];
    assert plus[1..] == [] && minus[1..] == [] && dot[1..] == [];
    assert ParseFrom([PLUS], []) == Some([PLUS]);
    var empty: seq<Value> := [];
    assert plus[0] == PLUS_BYTE && empty + [PLUS] == [PLUS];
    assert ParseFrom([], plus) == Some([PLUS]);
    assert ParseFrom([MINUS], []) == Some([MINUS]);
    assert minus[0] == MINUS_BYTE && empty + [MINUS] == [MINUS];
    assert ParseFrom([], minus) == Some([MINUS]);
    var pm: seq<bv8> := [PLUS_BYTE, MINUS_BYTE];
    assert pm[1..] == minus;
    assert ParseFrom([PLUS, MINUS], []) == Some([PLUS, MINUS]);
    assert [PLUS] + [MINUS] == [PLUS, MINUS];
    assert ParseFrom([PLUS], minus) == Some([PLUS, MINUS]);
    assert pm[0] == PLUS_BYTE;
    assert ParseFrom([], pm) == Some([PLUS, MINUS]);
    ApplyPrimitives(1, 0);
    ParseApplication(plus, minus);
    assert plus + minus + dot == [PLUS_BYTE, MINUS_BYTE, DOT_BYTE];
  }

  /** `Program::parse` as the loop it is in the source. */
  method ParseProgram(src: seq<bv8>) returns (r: Option<Value>)
    ensures r == Parse(src)
  {
    var stack: seq<Value> := [];
    var i := 0;
    while i < |src|
      invariant i <= |src|
      invariant ParseFrom(stack, src[i..]) == ParseFrom([], src)
    {
      var c := src[i];
      assert src[i..][0] == c && src[i..][1..] == src[i + 1..];
      if c == PLUS_BYTE {
        stack := stack + [PLUS];
      } else if c == MINUS_BYTE {
        stack := stack + [MINUS];
      } else if c == DOT_BYTE {
        if |stack| < 2 {
          return None;
        }
        var x := stack[|stack| - 1];
        var y := stack[|stack| - 2];
        stack := stack[..|stack| - 2] + [Apply(x, y)];
      }
      i := i + 1;
    }
    assert src[i..] == [];
    if |stack| == 1 {
      r := Some(stack[0]);
    } else {
      r := None;
    }
  }
}

=== FILE: shortcuts.dfy ===
/** `Value::apply` of `src/worse/core.rs`: building the application of `f`
    to `x`, taking a shortcut when the result is already known. The first
    part compares `f` with eight literal words; the second looks at what
    `f` decodes to and does checked or saturating `u32` arithmetic on
    numerals. Whenever no shortcut fires the result is `bind(f, x)`. */
module Shortcuts {
  import opened Ints
  import opened Words

  /** The heads the first part of `apply` matches literally. Once `f` is
      one of them, the second part is never consulted. */
  predicate LiteralHead(f: Value) {
    f == PLUS || f == PRED || f == ZERO || f == ONE
    || f == MINUS_PLUS || f == MINUS_MINUS || f == ROTATE_CONST || f == ROTATE_ZERO
  }

  /** The shortcut for a literal head, or `None` when `apply` binds. */
  function LiteralArm(f: Value, x: Value): Option<Value>
    requires LiteralHead(f)
  {
    if f == PLUS then
      if x == CONST then Some(CONST_CONST) else None
    else if f == PRED then
      if x == PRED then Some(CONST_ZERO)
      else if Decode(x).Num? then Some(Number(SaturatingSub(Decode(x).n, 1)))
      else None
    else if f == ZERO then Some(ONE)
    else if f == ONE then Some(x)
    else if f == MINUS_PLUS then
      if x == PLUS_MINUS || x == ONE then Some(ROTATE) else None
    else if f == MINUS_MINUS then
      if x == MINUS then Some(ZERO) else None
    else if f == ROTATE_CONST then
      if x == ROTATE then Some(ZERO) else None
    else
      if x == ROTATE then Some(CONST) else None
  }

  /** `Some(Number(v))` for a checked result that fits, `None` otherwise. */
  function NumberOf(v: Option<bv32>): Option<Value> {
    match v
    case Some(k) => Some(Number(k))
    case None => None
  }

  /** The shortcut chosen by what `f` decodes to, or `None` when `apply`
      binds. A word tagged as a pointer that is not one (`Dangling`) matches
      no pattern here. */
  function DecodedArm(f: Value, x: Value): Option<Value> {
    match Decode(f)
    case Num(m) =>
      (match Decode(x)
       case Num(n) => NumberOf(CheckedPow(n, m as int))
       case Pair(u, v) =>
         if v == PLUS && Decode(u).Num? then NumberOf(CheckedMul(m, Decode(u).n)) else None
       case _ => None)
    case Pair(g, u) =>
      if g == PLUS then
        if Decode(u).Num? && Decode(x).Num? then NumberOf(CheckedAdd(Decode(u).n, Decode(x).n))
        else None
      else if g == MINUS then
        if Decode(u).Num? && Decode(x).Num? then Some(Number(SaturatingSub(Decode(u).n, Decode(x).n)))
        else None
      else if g == CONST then Some(u)
      else None
    case _ => None
  }

  function Apply(f: Value, x: Value): Value {
    var shortcut := if LiteralHead(f) then LiteralArm(f, x) else DecodedArm(f, x);
    match shortcut
    case Some(r) => r
    case None => Bind(f, x)
  }

  // ---------------------------------------------------------------------
  // The shortcut table
  // ---------------------------------------------------------------------

  /** What the literal words denote. */
  lemma LiteralsDecode()
    ensures Decode(PLUS) == Atom && Decode(PRED) == Atom
    ensures Decode(ZERO) == Num(0) && Decode(ONE) == Num(4)
    ensures Decode(MINUS_PLUS) == Pair(MINUS, PLUS) && Decode(MINUS_MINUS) == Pair(MINUS, MINUS)
    ensures Decode(ROTATE_CONST) == Pair(ROTATE, CONST) && Decode(ROTATE_ZERO) == Pair(ROTATE, ZERO)
  {
  }

  /** The constant shortcuts of `apply`. */
  lemma ApplyLiterals(x: Value)
    ensures Apply(PLUS, CONST) == CONST_CONST
    ensures Apply(PRED, PRED) == CONST_ZERO
    ensures Apply(ZERO, x) == ONE
    ensures Apply(ONE, x) == x
    ensures Apply(MINUS_PLUS, PLUS_MINUS) == ROTATE && Apply(MINUS_PLUS, ONE) == ROTATE
    ensures Apply(MINUS_MINUS, MINUS) == ZERO
    ensures Apply(ROTATE_CONST, ROTATE) == ZERO
    ensures Apply(ROTATE_ZERO, ROTATE) == CONST
  {
  }

  /** The literal heads are recognised by what they decode to: a word
      decoding to anything else is not one of them. */
  lemma NotLiteralHead(f: Value)
    requires match Decode(f)
      case Atom => f != PLUS && f != PRED
      case Num(m) => f != ZERO && f != ONE
      case Pair(g, u) => g != MINUS && g != ROTATE
      case Dangling => true
    ensures !LiteralHead(f)
  {
    LiteralsDecode();
  }

  /** Two primitives are combined by `bind` except for the two literal
      shortcuts `PLUS CONST` and `PRED PRED`. */
  lemma ApplyPrimitives(a: bv64, b: bv64)
    requires a < 8 && b < 8
    requires !(a == 0 && b == 4) && !(a == 2 && b == 2)
    ensures Apply(Primitive(a), Primitive(b)) == Bind(Primitive(a), Primitive(b))
    ensures Decode(Apply(Primitive(a), Primitive(b))) == Pair(Primitive(a), Primitive(b))
  {
    PrimitiveDecodes(a);
    PrimitiveDecodes(b);
    BindPrimitives(a, b);
    if a != 0 && a != 2 {
      NotLiteralHead(Primitive(a));
    }
  }

  /** `(CONST u) x` is `u` for every word that decodes as `CONST` applied
      to `u`, however it was packed. */
  lemma ApplyConstLaw(f: Value, u: Value, x: Value)
    requires Decode(f) == Pair(CONST, u)
    ensures Apply(f, x) == u
  {
    NotLiteralHead(f);
  }

  /** `(PLUS m) n` adds the decoded magnitudes, falling back to `bind` when
      the sum leaves 32 bits. */
  lemma ApplyAddLaw(f: Value, u: Value, x: Value, m: bv32, n: bv32)
    requires Decode(f) == Pair(PLUS, u) && Decode(u) == Num(m) && Decode(x) == Num(n)
    ensures CheckedAdd(m, n).Some? ==> Apply(f, x) == Number(CheckedAdd(m, n).value)
    ensures CheckedAdd(m, n).None? ==> Apply(f, x) == Bind(f, x)
  {
    NotLiteralHead(f);
  }

  /** `(MINUS m) n` is the saturating difference of the decoded magnitudes;
      it always yields a numeral. */
  lemma ApplySubLaw(f: Value, u: Value, x: Value, m: bv32, n: bv32)
    requires Decode(f) == Pair(MINUS, u) && Decode(u) == Num(m) && Decode(x) == Num(n)
    ensures Apply(f, x) == Number(SaturatingSub(m, n))
  {
    LiteralsDecode();
  }

  /** `m (n PLUS)` multiplies the decoded magnitudes, falling back to `bind`
      when the product leaves 32 bits. */
  lemma ApplyMulLaw(f: Value, x: Value, u: Value, m: bv32, n: bv32)
    requires f != ZERO && f != ONE
    requires Decode(f) == Num(m) && Decode(x) == Pair(u, PLUS) && Decode(u) == Num(n)
    ensures CheckedMul(m, n).Some? ==> Apply(f, x) == Number(CheckedMul(m, n).value)
    ensures CheckedMul(m, n).None? ==> Apply(f, x) == Bind(f, x)
  {
    NotLiteralHead(f);
  }

  /** `m n` raises the decoded `n` to the decoded `m`, falling back to
      `bind` when the power leaves 32 bits. */
  lemma ApplyPowLaw(f: Value, x: Value, m: bv32, n: bv32)
    requires f != ZERO && f != ONE
    requires Decode(f) == Num(m) && Decode(x) == Num(n)
    ensures CheckedPow(n, m as int).Some? ==> Apply(f, x) == Number(CheckedPow(n, m as int).value)
    ensures CheckedPow(n, m as int).None? ==> Apply(f, x) == Bind(f, x)
  {
    NotLiteralHead(f);
  }

  /** `PRED n` is the saturating predecessor of the decoded magnitude. */
  lemma ApplyPredLaw(x: Value, n: bv32)
    requires Decode(x) == Num(n)
    ensures Apply(PRED, x) == Number(SaturatingSub(n, 1))
  {
    LiteralsDecode();
  }

  /** Everything outside the table and the arithmetic is plain `bind`: a
      primitive head other than `PLUS` and `PRED`, and an application head
      whose function is neither `PLUS`, `MINUS` nor `CONST` and which is not
      a literal `ROTATE` word. */
  lemma ApplyBindsOtherwise(f: Value, x: Value)
    requires match Decode(f)
      case Atom => f != PLUS && f != PRED
      case Num(m) => false
      case Pair(g, u) => g != PLUS && g != MINUS && g != CONST && f != ROTATE_CONST && f != ROTATE_ZERO
      case Dangling => true
    ensures Apply(f, x) == Bind(f, x)
  {
    LiteralsDecode();
  }

  /** A literal head whose guard fails falls through to `bind`: the first
      part of `apply` has no second chance for it. */
  lemma ApplyLiteralMisses(x: Value)
    ensures x != CONST ==> Apply(PLUS, x) == Bind(PLUS, x)
    ensures x != PRED && !Decode(x).Num? ==> Apply(PRED, x) == Bind(PRED, x)
    ensures x != PLUS_MINUS && x != ONE ==> Apply(MINUS_PLUS, x) == Bind(MINUS_PLUS, x)
    ensures x != MINUS ==> Apply(MINUS_MINUS, x) == Bind(MINUS_MINUS, x)
    ensures x != ROTATE ==> Apply(ROTATE_CONST, x) == Bind(ROTATE_CONST, x)
    ensures x != ROTATE ==> Apply(ROTATE_ZERO, x) == Bind(ROTATE_ZERO, x)
  {
    MissesAt(PLUS, x);
    MissesAt(PRED, x);
    MissesAt(MINUS_PLUS, x);
    MissesAt(MINUS_MINUS, x);
    MissesAt(ROTATE_CONST, x);
    MissesAt(ROTATE_ZERO, x);
  }

  /** A literal head whose arm gives no shortcut is bound. */
  lemma MissesAt(f: Value, x: Value)
    requires LiteralHead(f)
    ensures LiteralArm(f, x).None? ==> Apply(f, x) == Bind(f, x)
  {
  }

  /** An arithmetic head whose operands are not numerals falls through to
      `bind`: a numeral applied to something that is neither a numeral nor
      `n PLUS`, and `PLUS u` or `MINUS u` (other than the literal words)
      when `u` or the argument is not a numeral. */
  lemma ApplyOperandMisses(f: Value, x: Value)
    ensures (&& Decode(f).Num? && f != ZERO && f != ONE && !Decode(x).Num?
             && !(Decode(x).Pair? && Decode(x).arg == PLUS && Decode(Decode(x).fun).Num?)) ==>
      Apply(f, x) == Bind(f, x)
    ensures (&& Decode(f).Pair? && (Decode(f).fun == PLUS || Decode(f).fun == MINUS)
             && f != MINUS_PLUS && f != MINUS_MINUS
             && !(Decode(Decode(f).arg).Num? && Decode(x).Num?)) ==>
      Apply(f, x) == Bind(f, x)
  {
    if Decode(f).Num? && f != ZERO && f != ONE {
      NotLiteralHead(f);
    }
    if Decode(f).Pair? && (Decode(f).fun == PLUS || Decode(f).fun == MINUS) && f != MINUS_PLUS && f != MINUS_MINUS {
      LiteralsDecode();
      assert !LiteralHead(f);
    }
  }

  /** The rows of the shortcut table, as the laws above state them. */
  predicate TableRow(f: Value, x: Value) {
    || (f == PLUS && x == CONST)
    || (f == PRED && (x == PRED || Decode(x).Num?))
    || f == ZERO || f == ONE
    || (f == MINUS_PLUS && (x == PLUS_MINUS || x == ONE))
    || (f == MINUS_MINUS && x == MINUS)
    || ((f == ROTATE_CONST || f == ROTATE_ZERO) && x == ROTATE)
    || (!LiteralHead(f) && ArithmeticRow(f, x))
  }

  /** The rows that look at decoded magnitudes: a power or a product that
      fits, a sum that fits, any difference, and `CONST u`. */
  predicate ArithmeticRow(f: Value, x: Value) {
    match Decode(f)
    case Num(m) =>
      || (Decode(x).Num? && CheckedPow(Decode(x).n, m as int).Some?)
      || (Decode(x).Pair? && Decode(x).arg == PLUS && Decode(Decode(x).fun).Num?
          && CheckedMul(m, Decode(Decode(x).fun).n).Some?)
    case Pair(g, u) =>
      || (g == PLUS && Decode(u).Num? && Decode(x).Num? && CheckedAdd(Decode(u).n, Decode(x).n).Some?)
      || (g == MINUS && Decode(u).Num? && Decode(x).Num?)
      || g == CONST
    case _ => false
  }

  /** `apply` differs from `bind` only through a row of the table: every
      other input is plain `bind`. */
  lemma ApplyFallsThrough(f: Value, x: Value)
    ensures !TableRow(f, x) ==> Apply(f, x) == Bind(f, x)
  {
    if !TableRow(f, x) {
      if LiteralHead(f) {
        LiteralMiss(f, x);
        MissesAt(f, x);
      } else {
        ArithmeticMiss(f, x);
      }
    }
  }

  lemma LiteralMiss(f: Value, x: Value)
    requires LiteralHead(f) && !TableRow(f, x)
    ensures LiteralArm(f, x).None?
  {
  }

  lemma ArithmeticMiss(f: Value, x: Value)
    requires !ArithmeticRow(f, x)
    ensures DecodedArm(f, x).None?
  {
  }
}

=== FILE: stream.dfy ===
/** `Runtime::read` of `src/worse.rs`: a program run as a byte stream.

    The program's value is a list. Each turn reduces it under `Pure`, asks
    the `Decoder` what its head (the list applied to `CONST`) is, and:
    - a byte is written, and the tail (the list applied to `ZERO`) becomes
      the program for the next call;
    - `True` means the list is a cons of a second kind, whose own head is
      looked at: `True` again ends the stream, the byte 0 asks for one byte
      of input, which is applied to the tail before the next turn;
    - anything else is invalid data.

    The input is a sequence of the events its `read` reports for a one-byte
    buffer. The interpreter's panics and its non-termination surface as
    `Aborted` and `OutOfFuel`; one `fuel` bounds both the turns of the loop
    and every reduction within a turn. */
module Reader {
  import opened Ints
  import opened Words
  import opened Shortcuts
  import opened Engine

  /** What the input's `read` reports for a one-byte buffer. `Failed`
      carries the error's kind, which is passed on unchanged. */
  datatype Event = Got(b: bv8) | Eof | Interrupted | Failed(kind: nat)

  datatype ErrorKind = InvalidData | InputError(kind: nat)

  /** `io::Result<usize>`: the number of bytes written, or an error. */
  datatype IoResult = Ok(count: nat) | Err(error: ErrorKind)

  /** The runtime's state: the program still to run and the input left. */
  datatype Runtime = Runtime(code: Value, input: seq<Event>)

  /** How a call of `read` ends: its result, the byte it wrote into the
      caller's buffer, and the state it leaves; or a panic of the
      interpreter; or no answer within the budget. */
  datatype Served = Served(result: IoResult, written: Option<bv8>, after: Runtime)
                  | Aborted(crash: Crash)
                  | OutOfFuel

  // ---------------------------------------------------------------------
  // Input
  // ---------------------------------------------------------------------

  /** The value one byte of input becomes, and the input left; or the
      error that ends the call. */
  datatype Fetched = Fetched(x: Value, rest: seq<Event>) | FetchFailed(kind: nat, rest: seq<Event>)

  /** The inner loop of `read`: interrupted reads are retried, a byte `b`
      becomes `number(b)` and the end of the input becomes `CONST`. Input
      with no events left behaves as its end. */
  function Fetch(input: seq<Event>): Fetched
    decreases |input|
  {
    if input == [] then Fetched(CONST, [])
    else
      match input[0]
      case Got(b) => Fetched(Number(b as bv32), input[1..])
      case Eof => Fetched(CONST, input[1..])
      case Interrupted => Fetch(input[1..])
      case Failed(k) => FetchFailed(k, input[1..])
  }

  predicate IsSuffix(rest: seq<Event>, input: seq<Event>) {
    |rest| <= |input| && input[|input| - |rest|..] == rest
  }

  lemma SuffixTransitive(a: seq<Event>, b: seq<Event>, c: seq<Event>)
    requires IsSuffix(a, b) && IsSuffix(b, c)
    ensures IsSuffix(a, c)
  {
    assert c[|c| - |a|..] == c[|c| - |b|..][|b| - |a|..];
  }

  /** A fetch consumes input from the front and nothing else. */
  lemma {:induction false} FetchConsumes(input: seq<Event>)
    ensures IsSuffix(Fetch(input).rest, input)
    ensures |Fetch(input).rest| < |input| || input == []
    decreases |input|
  {
    if input != [] && input[0].Interrupted? {
      assert Fetch(input) == Fetch(input[1..]);
      FetchConsumes(input[1..]);
      SuffixTransitive(Fetch(input).rest, input[1..], input);
    }
  }

  /** `k` interrupted reads in a row. */
  function Interrupts(k: nat): seq<Event> {
    if k == 0 then [] else [Interrupted] + Interrupts(k - 1)
  }

  /** Interrupted reads are invisible: whatever number of them comes
      first, the fetch is that of the input after them. */
  lemma {:induction false} FetchSkipsInterrupts(k: nat, input: seq<Event>)
    ensures Fetch(Interrupts(k) + input) == Fetch(input)
    decreases k
  {
    if k > 0 {
      var s := Interrupts(k) + input;
      assert s == [Interrupted] + (Interrupts(k - 1) + input);
      assert s[0] == Interrupted && s[1..] == Interrupts(k - 1) + input;
      assert Fetch(s) == Fetch(s[1..]);
      FetchSkipsInterrupts(k - 1, input);
    } else {
      assert Interrupts(k) + input == input;
    }
  }

  /** The first event that is not an interruption decides the fetch. */
  lemma FetchDecides(e: Event, rest: seq<Event>)
    requires !e.Interrupted?
    ensures e.Got? ==> Fetch([e] + rest) == Fetched(Number(e.b as bv32), rest)
    ensures e.Eof? ==> Fetch([e] + rest) == Fetched(CONST, rest)
    ensures e.Failed? ==> Fetch([e] + rest) == FetchFailed(e.kind, rest)
  {
    assert ([e] + rest)[1..] == rest;
  }

  // ---------------------------------------------------------------------
  // The loop
  // ---------------------------------------------------------------------

  /** The operations of the core a turn calls: `apply`, and the two
      reductions `eval::<Pure>` and `eval::<Decoder>`, each given the step
      budget. The loop is stated for any such operations, and `EVAL` holds
      those of the engine. */
  datatype Evaluators = Evaluators(
    apply: (Value, Value) -> Value,
    pure: (Value, nat) -> Outcome<Value>,
    decoder: (Value, nat) -> Outcome<Leaf>)

  const EVAL: Evaluators := Evaluators(Apply, EvalPure, EvalDecoder)

  /** One turn of `read`'s loop: the call ends, or the loop goes on with
      a new list and the input left. */
  datatype Turned = Finish(served: Served) | Again(list: Value, rest: seq<Event>)

  /** A turn on `list`, with `code` the program the runtime holds. */
  function Turn(ev: Evaluators, code: Value, list: Value, input: seq<Event>, fuel: nat): Turned {
    match ev.pure(list, fuel)
    case Crash(c) => Finish(Aborted(c))
    case NoFuel => Finish(OutOfFuel)
    case Done(l) =>
      match ev.decoder(ev.apply(l, CONST), fuel)
      case Crash(c) => Finish(Aborted(c))
      case NoFuel => Finish(OutOfFuel)
      case Done(verdict) =>
        match verdict
        case True => Probe(ev, code, l, input, fuel)
        case Byte(b) => Finish(Served(Ok(1), Some(b), Runtime(ev.apply(l, ZERO), input)))
        case Invalid => Finish(Served(Err(InvalidData), None, Runtime(code, input)))
  }

  /** The second look, once the head of `l` was `True`: the head of its
      tail says whether the stream ends or wants a byte of input. */
  function Probe(ev: Evaluators, code: Value, l: Value, input: seq<Event>, fuel: nat): Turned {
    match ev.pure(ev.apply(l, ZERO), fuel)
    case Crash(c) => Finish(Aborted(c))
    case NoFuel => Finish(OutOfFuel)
    case Done(t) =>
      match ev.decoder(ev.apply(t, CONST), fuel)
      case Crash(c) => Finish(Aborted(c))
      case NoFuel => Finish(OutOfFuel)
      case Done(verdict) =>
        if verdict == True then Finish(Served(Ok(0), None, Runtime(code, input)))
        else if verdict == Byte(0) then
          match Fetch(input)
          case Fetched(x, rest) => Again(ev.apply(ev.apply(t, ZERO), x), rest)
          case FetchFailed(k, rest) => Finish(Served(Err(InputError(k)), None, Runtime(code, rest)))
        else Finish(Served(Err(InvalidData), None, Runtime(code, input)))
  }

  function Serve(ev: Evaluators, code: Value, list: Value, input: seq<Event>, fuel: nat): Served
    decreases fuel
  {
    if fuel == 0 then OutOfFuel
    else
      match Turn(ev, code, list, input, fuel)
      case Finish(s) => s
      case Again(next, rest) => Serve(ev, code, next, rest, fuel - 1)
  }

  /** `read` into a buffer of `len` bytes. */
  function ReadWith(ev: Evaluators, rt: Runtime, len: nat, fuel: nat): Served {
    if len == 0 then Served(Ok(0), None, rt)
    else Serve(ev, rt.code, rt.code, rt.input, fuel)
  }

  function Read(rt: Runtime, len: nat, fuel: nat): Served {
    ReadWith(EVAL, rt, len, fuel)
  }

  // ---------------------------------------------------------------------
  // What a call of `read` promises
  // ---------------------------------------------------------------------

  /** The contract of `read` for the caller: a byte is written exactly
      when the result is `Ok(1)`; the count is never more than one; the
      program advances only when a byte is written; and input is consumed
      from the front. */
  predicate Honest(code: Value, input: seq<Event>, s: Served) {
    s.Served? ==>
      && (s.result == Ok(1) <==> s.written.Some?)
      && (s.result.Ok? ==> s.result.count <= 1)
      && (s.written.None? ==> s.after.code == code)
      && IsSuffix(s.after.input, input)
  }

  lemma TurnHonest(ev: Evaluators, code: Value, list: Value, input: seq<Event>, fuel: nat)
    ensures Turn(ev, code, list, input, fuel).Finish? ==> Honest(code, input, Turn(ev, code, list, input, fuel).served)
    ensures Turn(ev, code, list, input, fuel).Again? ==> IsSuffix(Turn(ev, code, list, input, fuel).rest, input)
  {
    FetchConsumes(input);
    assert input[|input| - |input|..] == input;
  }

  lemma {:induction false} ServeHonest(ev: Evaluators, code: Value, list: Value, input: seq<Event>, fuel: nat)
    ensures Honest(code, input, Serve(ev, code, list, input, fuel))
    decreases fuel
  {
    if fuel > 0 {
      TurnHonest(ev, code, list, input, fuel);
      var t := Turn(ev, code, list, input, fuel);
      if t.Again? {
        ServeHonest(ev, code, t.list, t.rest, fuel - 1);
        var s := Serve(ev, code, t.list, t.rest, fuel - 1);
        if s.Served? {
          SuffixTransitive(s.after.input, t.rest, input);
        }
      }
    }
  }

  /** An empty buffer is answered with `Ok(0)` at once, leaving the state
      as it was; otherwise the answer keeps the promises of `Honest`. */
  lemma ReadHonest(rt: Runtime, len: nat, fuel: nat)
    ensures len == 0 ==> Read(rt, len, fuel) == Served(Ok(0), None, rt)
    ensures Honest(rt.code, rt.input, Read(rt, len, fuel))
  {
    ServeHonest(EVAL, rt.code, rt.code, rt.input, fuel);
    assert rt.input[|rt.input| - |rt.input|..] == rt.input;
  }

  /** Any turn, in terms of the two evaluators: a list whose reduced form
      has a byte `b` as its head writes `b`, and the runtime keeps the tail
      as its program. This is the only way a byte is written. */
  lemma ServeWritesHead(ev: Evaluators, code: Value, list: Value, input: seq<Event>, fuel: nat, l: Value, b: bv8)
    requires fuel > 0
    requires ev.pure(list, fuel) == Done(l)
    requires ev.decoder(ev.apply(l, CONST), fuel) == Done(Byte(b))
    ensures Serve(ev, code, list, input, fuel) == Served(Ok(1), Some(b), Runtime(ev.apply(l, ZERO), input))
  {
  }

  /** Any turn whose reduced list has `True` as its head twice over ends
      the stream: `Ok(0)`, nothing written, and the runtime keeps the
      program it held when the call began and the input left at this
      turn. */
  lemma ServeEndsStream(ev: Evaluators, code: Value, list: Value, input: seq<Event>, fuel: nat, l: Value, t: Value)
    requires fuel > 0
    requires ev.pure(list, fuel) == Done(l)
    requires ev.decoder(ev.apply(l, CONST), fuel) == Done(True)
    requires ev.pure(ev.apply(l, ZERO), fuel) == Done(t)
    requires ev.decoder(ev.apply(t, CONST), fuel) == Done(True)
    ensures Serve(ev, code, list, input, fuel) == Served(Ok(0), None, Runtime(code, input))
  {
  }

  /** Any turn whose list asks for input reads exactly one logical byte:
      interrupted reads are skipped; a byte `b` feeds `number(b)` and the
      end of input feeds `CONST` to the tail, and the loop goes on; an
      input error ends the call with that error, the program unchanged and
      the failed read consumed. */
  lemma ServeTakesInput(ev: Evaluators, code: Value, list: Value, fuel: nat, l: Value, t: Value,
                        k: nat, events: seq<Event>)
    requires fuel > 0
    requires ev.pure(list, fuel) == Done(l)
    requires ev.decoder(ev.apply(l, CONST), fuel) == Done(True)
    requires ev.pure(ev.apply(l, ZERO), fuel) == Done(t)
    requires ev.decoder(ev.apply(t, CONST), fuel) == Done(Byte(0))
    requires events == [] || !events[0].Interrupted?
    ensures events == [] ==>
      Serve(ev, code, list, Interrupts(k) + events, fuel) == Serve(ev, code, ev.apply(ev.apply(t, ZERO), CONST), [], fuel - 1)
    ensures events != [] && events[0].Eof? ==>
      Serve(ev, code, list, Interrupts(k) + events, fuel) == Serve(ev, code, ev.apply(ev.apply(t, ZERO), CONST), events[1..], fuel - 1)
    ensures events != [] && events[0].Got? ==>
      Serve(ev, code, list, Interrupts(k) + events, fuel)
        == Serve(ev, code, ev.apply(ev.apply(t, ZERO), Number(events[0].b as bv32)), events[1..], fuel - 1)
    ensures events != [] && events[0].Failed? ==>
      Serve(ev, code, list, Interrupts(k) + events, fuel) == Served(Err(InputError(events[0].kind)), None, Runtime(code, events[1..]))
  {
    FetchSkipsInterrupts(k, events);
    if events != [] {
      assert events == [events[0]] + events[1..];
      FetchDecides(events[0], events[1..]);
    }
  }

  /** Any other verdict ends the call with `InvalidData`, nothing written,
      and the program and input as they were: a first probe that is neither
      `True` nor a byte, and a second probe that is neither `True` nor the
      byte 0. */
  lemma ServeRejects(ev: Evaluators, code: Value, list: Value, input: seq<Event>, fuel: nat, l: Value, t: Value, v: Leaf)
    requires fuel > 0
    requires ev.pure(list, fuel) == Done(l)
    ensures ev.decoder(ev.apply(l, CONST), fuel) == Done(Invalid) ==>
      Serve(ev, code, list, input, fuel) == Served(Err(InvalidData), None, Runtime(code, input))
    ensures (&& ev.decoder(ev.apply(l, CONST), fuel) == Done(True)
             && ev.pure(ev.apply(l, ZERO), fuel) == Done(t)
             && ev.decoder(ev.apply(t, CONST), fuel) == Done(v)
             && v != True && v != Byte(0)) ==>
      Serve(ev, code, list, input, fuel) == Served(Err(InvalidData), None, Runtime(code, input))
  {
  }

  /** The same promises for a call of `read` with a non-empty buffer,
      whose loop starts from the program the runtime holds. */
  lemma ReadWritesHead(ev: Evaluators, rt: Runtime, len: nat, fuel: nat, l: Value, b: bv8)
    requires len > 0 && fuel > 0
    requires ev.pure(rt.code, fuel) == Done(l)
    requires ev.decoder(ev.apply(l, CONST), fuel) == Done(Byte(b))
    ensures ReadWith(ev, rt, len, fuel) == Served(Ok(1), Some(b), Runtime(ev.apply(l, ZERO), rt.input))
  {
    ServeWritesHead(ev, rt.code, rt.code, rt.input, fuel, l, b);
  }

  lemma ReadEndsStream(ev: Evaluators, rt: Runtime, len: nat, fuel: nat, l: Value, t: Value)
    requires len > 0 && fuel > 0
    requires ev.pure(rt.code, fuel) == Done(l)
    requires ev.decoder(ev.apply(l, CONST), fuel) == Done(True)
    requires ev.pure(ev.apply(l, ZERO), fuel) == Done(t)
    requires ev.decoder(ev.apply(t, CONST), fuel) == Done(True)
    ensures ReadWith(ev, rt, len, fuel) == Served(Ok(0), None, rt)
  {
    ServeEndsStream(ev, rt.code, rt.code, rt.input, fuel, l, t);
  }

  lemma ReadTakesInput(ev: Evaluators, rt: Runtime, len: nat, fuel: nat, l: Value, t: Value, b: bv8, rest: seq<Event>)
    requires len > 0 && fuel > 0
    requires ev.pure(rt.code, fuel) == Done(l)
    requires ev.decoder(ev.apply(l, CONST), fuel) == Done(True)
    requires ev.pure(ev.apply(l, ZERO), fuel) == Done(t)
    requires ev.decoder(ev.apply(t, CONST), fuel) == Done(Byte(0))
    requires rt.input == [Got(b)] + rest
    ensures ReadWith(ev, rt, len, fuel) == Serve(ev, rt.code, ev.apply(ev.apply(t, ZERO), Number(b as bv32)), rest, fuel - 1)
  {
    var events := [Got(b)] + rest;
    assert Interrupts(0) + events == rt.input;
    assert events[1..] == rest;
    ServeTakesInput(ev, rt.code, rt.code, fuel, l, t, 0, events);
  }

  // ---------------------------------------------------------------------
  // The budget is only a bound
  // ---------------------------------------------------------------------

  /** Both reductions give the same answer for any larger budget once
      they have answered. */
  ghost predicate Monotone(ev: Evaluators) {
    && (forall v, f: nat, m: nat :: f <= m && !ev.pure(v, f).NoFuel? ==> ev.pure(v, m) == ev.pure(v, f))
    && (forall v, f: nat, m: nat :: f <= m && !ev.decoder(v, f).NoFuel? ==> ev.decoder(v, m) == ev.decoder(v, f))
  }

  lemma EvalPureMonotone(v: Value, fuel: nat, more: nat)
    requires fuel <= more && !EvalPure(v, fuel).NoFuel?
    ensures EvalPure(v, more) == EvalPure(v, fuel)
  {
    ReduceMonotone(Machine(v, [], Pure), fuel, more);
  }

  lemma EvalDecoderMonotone(v: Value, fuel: nat, more: nat)
    requires fuel <= more && !EvalDecoder(v, fuel).NoFuel?
    ensures EvalDecoder(v, more) == EvalDecoder(v, fuel)
  {
    ReduceMonotone(Machine(v, [MARKER_INIT, MARKER_INC], Decoder(Some(0))), fuel, more);
  }

  lemma EngineMonotone()
    ensures Monotone(EVAL)
  {
    forall v, f: nat, m: nat | f <= m && !EvalPure(v, f).NoFuel?
      ensures EvalPure(v, m) == EvalPure(v, f)
    {
      EvalPureMonotone(v, f, m);
    }
    forall v, f: nat, m: nat | f <= m && !EvalDecoder(v, f).NoFuel?
      ensures EvalDecoder(v, m) == EvalDecoder(v, f)
    {
      EvalDecoderMonotone(v, f, m);
    }
  }

  lemma TurnMonotone(ev: Evaluators, code: Value, list: Value, input: seq<Event>, fuel: nat, more: nat)
    requires Monotone(ev)
    requires fuel <= more && Turn(ev, code, list, input, fuel) != Finish(OutOfFuel)
    ensures Turn(ev, code, list, input, more) == Turn(ev, code, list, input, fuel)
  {
  }

  /** More budget never changes a call of `read` that has answered or
      panicked. */
  lemma {:induction false} ServeMonotone(ev: Evaluators, code: Value, list: Value, input: seq<Event>, fuel: nat, more: nat)
    requires Monotone(ev)
    requires fuel <= more && !Serve(ev, code, list, input, fuel).OutOfFuel?
    ensures Serve(ev, code, list, input, more) == Serve(ev, code, list, input, fuel)
    decreases fuel
  {
    TurnMonotone(ev, code, list, input, fuel, more);
    var t := Turn(ev, code, list, input, fuel);
    if t.Again? {
      ServeMonotone(ev, code, t.list, t.rest, fuel - 1, more - 1);
    }
  }

  lemma ReadMonotone(rt: Runtime, len: nat, fuel: nat, more: nat)
    requires fuel <= more && !Read(rt, len, fuel).OutOfFuel?
    ensures Read(rt, len, more) == Read(rt, len, fuel)
  {
    if len > 0 {
      EngineMonotone();
      ServeMonotone(EVAL, rt.code, rt.code, rt.input, fuel, more);
    }
  }

  // ---------------------------------------------------------------------
  // The loop as a loop
  // ---------------------------------------------------------------------

  /** `read` written with the source's loop. */
  method ReadLoop(ev: Evaluators, rt: Runtime, len: nat, fuel: nat) returns (s: Served)
    ensures s == ReadWith(ev, rt, len, fuel)
  {
    if len == 0 {
      return Served(Ok(0), None, rt);
    }
    var list, input := rt.code, rt.input;
    var left: nat := fuel;
    while left > 0
      invariant left <= fuel
      invariant Serve(ev, rt.code, list, input, left) == Serve(ev, rt.code, rt.code, rt.input, fuel)
      decreases left
    {
      var t := Turn(ev, rt.code, list, input, left);
      match t
      case Finish(r) =>
        return r;
      case Again(next, rest) =>
        list, input := next, rest;
        left := left - 1;
    }
    return OutOfFuel;
  }

  /** `Runtime::read` itself. */
  method RuntimeRead(rt: Runtime, len: nat, fuel: nat) returns (s: Served)
    ensures s == Read(rt, len, fuel)
  {
    s := ReadLoop(EVAL, rt, len, fuel);
  }
}

=== FILE: words.dfy ===
/** The term representation of `src/worse/core.rs`: every term is one 64-bit
    word. The two low bits tell the kinds apart:

      - `..1`   a primitive combinator, `id << 1 | 1`;
      - `0010`  a numeral, `n << 4 | 0b0010`;
      - `0110`, `1010`, `1110`  an application packed inline, in a 13-, 30- or
        64-bit layout;
      - `..00`  a pointer to a heap-allocated application node.

    Inline words are kept as `bv64`, so equality of two inline values is
    exactly the source's raw-word equality. A heap pointer is abstracted to
    the node it points to; it is never equal to an inline constant, which is
    all the core ever compares it with. */
module Words {
  import opened Ints

  datatype Value = Inline(raw: bv64) | Heap(fun: Value, arg: Value)

  function Primitive(id: bv64): Value
    requires id < 8
  {
    Inline((id << 1) | 1)
  }

  const PLUS: Value := Primitive(0)
  const MINUS: Value := Primitive(1)
  const PRED: Value := Primitive(2)
  const WRAP: Value := Primitive(3)
  const CONST: Value := Primitive(4)
  const ROTATE: Value := Primitive(5)
  const MARKER_INC: Value := Primitive(6)
  const MARKER_INIT: Value := Primitive(7)

  function Number(n: bv32): Value {
    Inline((Wide(n) << 4) | 0x2)
  }

  const ZERO: Value := Number(0)
  const ONE: Value := Number(1)

  function Pair13(x: bv64, y: bv64): bv64 {
    (x << 8) | (y << 4) | 0x6
  }

  function Pair30(x: bv64, y: bv64): bv64 {
    (x << 17) | (y << 4) | 0xa
  }

  function Pair64(x: bv64, y: bv64): bv64 {
    (x << 34) | (y << 4) | 0xe
  }

  /** The packed constants that the shortcut layer compares against. */
  const PLUS_MINUS: Value := Inline(Pair13(PLUS.raw, MINUS.raw))
  const MINUS_PLUS: Value := Inline(Pair13(MINUS.raw, PLUS.raw))
  const MINUS_MINUS: Value := Inline(Pair13(MINUS.raw, MINUS.raw))
  const CONST_CONST: Value := Inline(Pair13(CONST.raw, CONST.raw))
  const CONST_ZERO: Value := Inline(Pair13(CONST.raw, ZERO.raw))
  const ROTATE_CONST: Value := Inline(Pair13(ROTATE.raw, CONST.raw))
  const ROTATE_ZERO: Value := Inline(Pair13(ROTATE.raw, ZERO.raw))

  /** The narrowest layout an application with this value as a component
      may use, in increasing order of width. */
  datatype Width = W13 | W30 | W64 | Ptr

  function Rank(w: Width): nat {
    match w
    case W13 => 0
    case W30 => 1
    case W64 => 2
    case Ptr => 3
  }

  function Max(a: Width, b: Width): Width {
    if Rank(a) >= Rank(b) then a else b
  }

  /** The low 32 bits of a word: Rust's `as u32`. */
  function Low32(w: bv64): bv32 {
    (w & 0xffff_ffff) as bv32
  }

  /** The layout a numeral of magnitude `n` needs as a component. */
  function NumeralWidth(n: bv32): Width {
    if n < 0x200 then W30
    else if n < 0x4000_0000 then W64
    else Ptr
  }

  function PairWidth(v: Value): Width {
    match v
    case Heap(_, _) => Ptr
    case Inline(w) =>
      if w & 3 == 0 then Ptr
      else if w & 3 == 2 then
        if w & 0xc == 0 then
          NumeralWidth(Low32(w >> 4))
        else if w & 0xc == 4 then W30
        else if w & 0xc == 8 then W64
        else Ptr
      else W13
  }

  /** Builds the application of `x` to `y` in the layout of the wider of
      the two components, allocating a heap node when neither inline layout
      applies. */
  function Bind(x: Value, y: Value): Value {
    Pack(Max(PairWidth(x), PairWidth(y)), x, y)
  }

  /** The application of `x` to `y` in layout `w`; an inline layout is only
      ever chosen for inline components. */
  function Pack(w: Width, x: Value, y: Value): Value
    requires w != Ptr ==> x.Inline? && y.Inline?
  {
    match w
    case W13 => Inline(Pair13(x.raw, y.raw))
    case W30 => Inline(Pair30(x.raw, y.raw))
    case W64 => Inline(Pair64(x.raw, y.raw))
    case Ptr => Heap(x, y)
  }

  /** What a word denotes: Rust's `Data`. `Atom` is the source's
      `Data::None` (a primitive). `Dangling` is an inline word whose tag
      marks a pointer: the source would dereference it, the model cannot. */
  datatype Data = Atom | Num(n: bv32) | Pair(fun: Value, arg: Value) | Dangling

  function Decode(v: Value): Data {
    match v
    case Heap(f, a) => Pair(f, a)
    case Inline(w) =>
      if w & 3 == 0 then Dangling
      else if w & 3 == 2 then
        if w & 0xc == 4 then Pair(Inline(w >> 8), Inline((w >> 4) & 0xf))
        else if w & 0xc == 8 then Pair(Inline(w >> 17), Inline((w >> 4) & 0x1fff))
        else if w & 0xc == 0xc then Pair(Inline(w >> 34), Inline((w >> 4) & 0x3fff_ffff))
        else Num(Low32(w >> 2))
      else Atom
  }

  // ---------------------------------------------------------------------
  // Decoding by tag. The bit-level facts are kept in small lemmas of their
  // own so that each proof obligation holds few bitvector terms.
  // ---------------------------------------------------------------------

  lemma DecodeNumeralWord(w: bv64)
    requires w & 3 == 2 && w & 0xc == 0
    ensures Decode(Inline(w)) == Num(Low32(w >> 2))
  {
    var d := Decode(Inline(w));
    assert d.Num?;
    assert d.n == Low32(w >> 2);
  }

  lemma PairWidthNumeralWord(w: bv64)
    requires w & 3 == 2 && w & 0xc == 0
    ensures PairWidth(Inline(w)) == NumeralWidth(Low32(w >> 4))
  {
  }

  lemma DecodePair13Word(w: bv64)
    requires w & 3 == 2 && w & 0xc == 4
    ensures Decode(Inline(w)) == Pair(Inline(w >> 8), Inline((w >> 4) & 0xf))
  {
  }

  lemma DecodePair30Word(w: bv64)
    requires w & 3 == 2 && w & 0xc == 8
    ensures Decode(Inline(w)) == Pair(Inline(w >> 17), Inline((w >> 4) & 0x1fff))
  {
  }

  lemma DecodePair64Word(w: bv64)
    requires w & 3 == 2 && w & 0xc == 0xc
    ensures Decode(Inline(w)) == Pair(Inline(w >> 34), Inline((w >> 4) & 0x3fff_ffff))
  {
  }

  // Facts about a numeral word, one per lemma: the solver handles each
  // alone quickly but not several together.

  lemma NumeralTag(n: bv32)
    ensures Number(n).raw & 3 == 2 && Number(n).raw & 0xc == 0
  {
  }

  lemma NumeralDecodeField(n: bv32)
    ensures Low32(Number(n).raw >> 2) == n << 2
  {
  }

  lemma NumeralWidthField(n: bv32)
    ensures Low32(Number(n).raw >> 4) == n
  {
  }

  lemma NumeralBelow30(n: bv32)
    ensures Number(n).raw < 1 << 30 <==> n < 0x400_0000
  {
  }

  lemma Pair13Tag(x: bv64, y: bv64)
    ensures Pair13(x, y) & 3 == 2 && Pair13(x, y) & 0xc == 4
  {
  }

  lemma Pair30Tag(x: bv64, y: bv64)
    ensures Pair30(x, y) & 3 == 2 && Pair30(x, y) & 0xc == 8
  {
  }

  lemma Pair64Tag(x: bv64, y: bv64)
    ensures Pair64(x, y) & 3 == 2 && Pair64(x, y) & 0xc == 0xc
  {
  }

  lemma Pair13Fields(x: bv64, y: bv64)
    ensures var w := Pair13(x, y);
      (w >> 8 == x && (w >> 4) & 0xf == y) <==> (x < 1 << 56 && y < 1 << 4)
  {
  }

  lemma Pair30Fields(x: bv64, y: bv64)
    ensures var w := Pair30(x, y);
      (w >> 17 == x && (w >> 4) & 0x1fff == y) <==> (x < 1 << 47 && y < 1 << 13)
  {
  }

  lemma Pair64Fields(x: bv64, y: bv64)
    ensures var w := Pair64(x, y);
      (w >> 34 == x && (w >> 4) & 0x3fff_ffff == y) <==> (x < 1 << 30 && y < 1 << 30)
  {
  }

  // ---------------------------------------------------------------------
  // Properties of the encoding
  // ---------------------------------------------------------------------

  /** Every primitive is an atom and packs into the 13-bit layout. */
  lemma PrimitiveDecodes(id: bv64)
    requires id < 8
    ensures Decode(Primitive(id)) == Atom
    ensures PairWidth(Primitive(id)) == W13
  {
  }

  /** A numeral decodes to its magnitude shifted left by two bits: the
      encoding shifts by four and the decoding back by only two, so
      `data(number(n))` is `Number(4 n mod 2^32)` rather than `Number(n)`. */
  lemma NumberDecodes(n: bv32)
    ensures Decode(Number(n)) == Num(n << 2)
  {
    NumeralTag(n);
    NumeralDecodeField(n);
    DecodeNumeralWord(Number(n).raw);
  }

  lemma NumberWidthIsMagnitude(n: bv32)
    ensures PairWidth(Number(n)) == NumeralWidth(n)
  {
    NumeralTag(n);
    NumeralWidthField(n);
    PairWidthNumeralWord(Number(n).raw);
  }

  /** The numeral thresholds of `pair_width`. */
  lemma NumberWidth(n: bv32)
    ensures n < 0x200 ==> PairWidth(Number(n)) == W30
    ensures 0x200 <= n < 0x4000_0000 ==> PairWidth(Number(n)) == W64
    ensures 0x4000_0000 <= n ==> PairWidth(Number(n)) == Ptr
  {
    NumberWidthIsMagnitude(n);
  }

  lemma Pair13Decodes(x: bv64, y: bv64)
    ensures Decode(Inline(Pair13(x, y))) == Pair(Inline(Pair13(x, y) >> 8), Inline((Pair13(x, y) >> 4) & 0xf))
  {
    Pair13Tag(x, y);
    DecodePair13Word(Pair13(x, y));
  }

  lemma Pair30Decodes(x: bv64, y: bv64)
    ensures Decode(Inline(Pair30(x, y))) == Pair(Inline(Pair30(x, y) >> 17), Inline((Pair30(x, y) >> 4) & 0x1fff))
  {
    Pair30Tag(x, y);
    DecodePair30Word(Pair30(x, y));
  }

  lemma Pair64Decodes(x: bv64, y: bv64)
    ensures Decode(Inline(Pair64(x, y))) == Pair(Inline(Pair64(x, y) >> 34), Inline((Pair64(x, y) >> 4) & 0x3fff_ffff))
  {
    Pair64Tag(x, y);
    DecodePair64Word(Pair64(x, y));
  }

  /** The condition under which layout `w` can hold both components: the
      second component must fit the field the layout reserves for it (4, 13
      or 30 bits) and the first must survive the left shift (56, 47 or 30
      bits). */
  predicate FitsIn(w: Width, x: Value, y: Value)
    requires w != Ptr ==> x.Inline? && y.Inline?
  {
    match w
    case W13 => x.raw < 1 << 56 && y.raw < 1 << 4
    case W30 => x.raw < 1 << 47 && y.raw < 1 << 13
    case W64 => x.raw < 1 << 30 && y.raw < 1 << 30
    case Ptr => true
  }

  /** Whether `bind` can represent the application of `x` to `y` faithfully. */
  predicate Fits(x: Value, y: Value) {
    FitsIn(Max(PairWidth(x), PairWidth(y)), x, y)
  }

  /** `bind` picks the wider of the two components' layouts, and a heap
      node exactly when one of them needs a pointer. */
  lemma BindWidth(x: Value, y: Value)
    ensures var w := Max(PairWidth(x), PairWidth(y));
      && (w == W13 ==> Bind(x, y) == Inline(Pair13(x.raw, y.raw)))
      && (w == W30 ==> Bind(x, y) == Inline(Pair30(x.raw, y.raw)))
      && (w == W64 ==> Bind(x, y) == Inline(Pair64(x.raw, y.raw)))
      && (w == Ptr <==> Bind(x, y).Heap?)
  {
  }

  lemma Pack13RoundTrip(x: bv64, y: bv64)
    ensures Decode(Inline(Pair13(x, y))) == Pair(Inline(x), Inline(y)) <==> x < 1 << 56 && y < 1 << 4
  {
    Pair13Decodes(x, y);
    Pair13Fields(x, y);
  }

  lemma Pack30RoundTrip(x: bv64, y: bv64)
    ensures Decode(Inline(Pair30(x, y))) == Pair(Inline(x), Inline(y)) <==> x < 1 << 47 && y < 1 << 13
  {
    Pair30Decodes(x, y);
    Pair30Fields(x, y);
  }

  lemma Pack64RoundTrip(x: bv64, y: bv64)
    ensures Decode(Inline(Pair64(x, y))) == Pair(Inline(x), Inline(y)) <==> x < 1 << 30 && y < 1 << 30
  {
    Pair64Decodes(x, y);
    Pair64Fields(x, y);
  }

  lemma PackW13(x: Value, y: Value)
    requires x.Inline? && y.Inline?
    ensures Decode(Pack(W13, x, y)) == Pair(x, y) <==> FitsIn(W13, x, y)
  {
    Pack13RoundTrip(x.raw, y.raw);
    InlineEta(x, y);
  }

  lemma PackW30(x: Value, y: Value)
    requires x.Inline? && y.Inline?
    ensures Decode(Pack(W30, x, y)) == Pair(x, y) <==> FitsIn(W30, x, y)
  {
    Pack30RoundTrip(x.raw, y.raw);
    InlineEta(x, y);
  }

  lemma PackW64(x: Value, y: Value)
    requires x.Inline? && y.Inline?
    ensures Decode(Pack(W64, x, y)) == Pair(x, y) <==> FitsIn(W64, x, y)
  {
    Pack64RoundTrip(x.raw, y.raw);
    InlineEta(x, y);
  }

  lemma InlineEta(x: Value, y: Value)
    requires x.Inline? && y.Inline?
    ensures Pair(Inline(x.raw), Inline(y.raw)) == Pair(x, y)
  {
  }

  /** Decoding an application packed in layout `w` gives back its
      components exactly when they fit that layout. */
  lemma PackRoundTrip(w: Width, x: Value, y: Value)
    requires w != Ptr ==> x.Inline? && y.Inline?
    ensures Decode(Pack(w, x, y)) == Pair(x, y) <==> FitsIn(w, x, y)
  {
    match w
    case W13 => PackW13(x, y);
    case W30 => PackW30(x, y);
    case W64 => PackW64(x, y);
    case Ptr =>
  }

  /** Decoding a bound application gives back its two components exactly
      when they fit the layout `bind` chose. */
  lemma BindRoundTrip(x: Value, y: Value)
    ensures Decode(Bind(x, y)) == Pair(x, y) <==> Fits(x, y)
  {
    PackRoundTrip(Max(PairWidth(x), PairWidth(y)), x, y);
  }

  /** Whatever the layout, `bind` yields a word that decodes as an
      application: never an atom, a numeral or a dangling pointer. */
  lemma BindDecodesAsPair(x: Value, y: Value)
    ensures Decode(Bind(x, y)).Pair?
  {
    BindWidth(x, y);
    var w := Max(PairWidth(x), PairWidth(y));
    if w == W13 {
      Pair13Tag(x.raw, y.raw);
    } else if w == W30 {
      Pair30Tag(x.raw, y.raw);
    } else if w == W64 {
      Pair64Tag(x.raw, y.raw);
    }
  }

  /** Two primitives always pack into the 13-bit layout and decode back, so
      among primitives `bind` is canonical: equal applications are equal
      words. */
  lemma BindPrimitives(a: bv64, b: bv64)
    requires a < 8 && b < 8
    ensures Bind(Primitive(a), Primitive(b)) == Inline(Pair13(Primitive(a).raw, Primitive(b).raw))
    ensures Decode(Bind(Primitive(a), Primitive(b))) == Pair(Primitive(a), Primitive(b))
  {
    BindRoundTrip(Primitive(a), Primitive(b));
  }

  /** The 64-bit layout admits numerals below 2^30 but stores each component
      in 30 bits, so a numeral component round-trips only below 2^26. */
  lemma BindNumberRoundTrip(id: bv64, n: bv32)
    requires id < 8 && 0x200 <= n < 0x4000_0000
    ensures Bind(Primitive(id), Number(n)) == Inline(Pair64(Primitive(id).raw, Number(n).raw))
    ensures Decode(Bind(Primitive(id), Number(n))) == Pair(Primitive(id), Number(n)) <==> n < 0x400_0000
  {
    NumberWidth(n);
    NumeralBelow30(n);
    BindRoundTrip(Primitive(id), Number(n));
  }

  /** The concrete failure: `bind(PLUS, number(2^26))` decodes as
      `(PLUS, ZERO)`, the numeral's bit 26 having been cut off. */
  lemma BindTruncates()
    ensures Decode(Bind(PLUS, Number(0x400_0000))) == Pair(PLUS, ZERO)
  {
    NumberWidth(0x400_0000);
    var w := Pair64(PLUS.raw, Number(0x400_0000).raw);
    Pair64Decodes(PLUS.raw, Number(0x400_0000).raw);
    assert w >> 34 == 1 && (w >> 4) & 0x3fff_ffff == 2;
  }

  /** The same truncation can manufacture the reserved `MARKER_INC`
      primitive out of `PLUS` and a numeral. */
  lemma BindForgesMarker()
    ensures Decode(Bind(PLUS, Number(0x3000_0000))) == Pair(MARKER_INC, ZERO)
  {
    NumberWidth(0x3000_0000);
    var w := Pair64(PLUS.raw, Number(0x3000_0000).raw);
    Pair64Decodes(PLUS.raw, Number(0x3000_0000).raw);
    assert w >> 34 == 13 && (w >> 4) & 0x3fff_ffff == 2;
  }

  /** `bind` never yields the packed constants holding `ZERO`: a numeral is
      never narrow enough for the 13-bit layout, so `bind(CONST, ZERO)` is a
      different word from `CONST_ZERO` although both decode alike. */
  lemma BindAvoidsZeroConstants(x: Value, y: Value)
    ensures Bind(x, y) != CONST_ZERO && Bind(x, y) != ROTATE_ZERO
    ensures Decode(Bind(CONST, ZERO)) == Decode(CONST_ZERO)
  {
    NumberWidth(0);
    BindRoundTrip(CONST, ZERO);
    Pair13Decodes(CONST.raw, ZERO.raw);
    var w := Max(PairWidth(x), PairWidth(y));
    if w == W13 {
      OddPair13(x.raw, y.raw);
    } else if w == W30 {
      Pair30Tag(x.raw, y.raw);
    } else if w == W64 {
      Pair64Tag(x.raw, y.raw);
    }
  }

  lemma OddPair13(x: bv64, y: bv64)
    requires y & 1 == 1
    ensures Pair13(x, y) & 0xfff != Pair13(9, 2) && Pair13(x, y) & 0xfff != Pair13(11, 2)
  {
  }
}
